=== FILE: README.md ===
# Transaction fraud-flagging service and its web client, modelled in Dafny

This project models a small banking system. The system is a Spring Boot
service that accepts transactions, flags suspicious ones with five rules, and
stores them in a `TRANSACTIONS` table. A React front end submits and lists
them. The model covers both halves.

**Server (Java)**

- `TransactionModel` (`transaction.dfy`): the `Transaction` bean.
  - It is a class with the fourteen fields and their setters.
  - The Bean Validation constraints become the predicate `Valid` and the error list `Violations`.
- `Repository` (`repository.dfy`): the table and its queries.
  - The table is a sequence of rows that `insertTransaction` appends to.
  - Each SQL query is a filter, count, average or sort over that sequence.
  - The database clock (`SYSDATE`) is an integer number of seconds passed in.
- `Service` (`service.dfy`): `checkFraudRules`.
  - It appends the five alerts to a buffer rule by rule.
  - It then sets the flag and the reason on the transaction.
  - The method is proved against `Verdict` and `Flagged`, which are defined from the set of rules that fire.
- `Controller` (`controller.dfy`): the three handlers.
  - `POST` validates, checks, inserts and replies, in that order.
  - The two `GET`s delegate.

**Client (TypeScript)**

- `ApiClient` (`api_client.dfy`): `transactionApi.ts`.
  - Replies, JSON values and thrown values are datatypes given as input.
  - `createTransaction` is a method that reassigns its error message the way the source does.
  - The five list requests are one function with the endpoint as a parameter.
- `History` (`history.dfy`): the history page.
  - It covers the date window, the window filter, the tab-to-request mapping, the counters, and the page state updated by each fetch.
- `Form` (`form.dfy`): the submit form.
  - It covers input changes, the submit handler (validation order, payload, messages, reset) and clearing.

`Wrappers` (an `Option` type) and `Seqs` hold shared helpers: filter, subsequence and join, with their lemmas.

What comes from outside is a parameter of the model:

- the database clock;
- the text the JDBC driver makes of a date;
- the current time;
- calendar month subtraction;
- timestamp parsing and number parsing;
- the text of a JavaScript number;
- whether loading the client module succeeds;
- each server reply.

## Model

| member | source | states |
|---|---|---|
| TransactionModel.Transaction.constructor | transaction-api/src/main/java/com/example/transaction_api/model/Transaction.java:5-34 | a new object holds Java's defaults: every string null, amount 0, flag false |
| TransactionModel.Transaction.SetTransactionId | transaction-api/src/main/java/com/example/transaction_api/model/Transaction.java:38 | only `transactionId` changes, and reading it back gives the value set |
| TransactionModel.Transaction.SetTimestamp | transaction-api/src/main/java/com/example/transaction_api/model/Transaction.java:41 | only `timestamp` changes, and reading it back gives the value set |
| TransactionModel.Transaction.SetCurrency | transaction-api/src/main/java/com/example/transaction_api/model/Transaction.java:44 | only `currency` changes, and reading it back gives the value set |
| TransactionModel.Transaction.SetAmount | transaction-api/src/main/java/com/example/transaction_api/model/Transaction.java:47 | only `amount` changes, and reading it back gives the value set |
| TransactionModel.Transaction.SetSenderAccount | transaction-api/src/main/java/com/example/transaction_api/model/Transaction.java:50 | only `senderAccount` changes, and reading it back gives the value set |
| TransactionModel.Transaction.SetReceiverAccount | transaction-api/src/main/java/com/example/transaction_api/model/Transaction.java:53 | only `receiverAccount` changes, and reading it back gives the value set |
| TransactionModel.Transaction.SetTransactionType | transaction-api/src/main/java/com/example/transaction_api/model/Transaction.java:56 | only `transactionType` changes, and reading it back gives the value set |
| TransactionModel.Transaction.SetChannel | transaction-api/src/main/java/com/example/transaction_api/model/Transaction.java:59 | only `channel` changes, and reading it back gives the value set |
| TransactionModel.Transaction.SetStatus | transaction-api/src/main/java/com/example/transaction_api/model/Transaction.java:62 | only `status` changes, and reading it back gives the value set |
| TransactionModel.Transaction.SetIpAddress | transaction-api/src/main/java/com/example/transaction_api/model/Transaction.java:65 | only `ipAddress` changes, and reading it back gives the value set |
| TransactionModel.Transaction.SetLocation | transaction-api/src/main/java/com/example/transaction_api/model/Transaction.java:68 | only `location` changes, and reading it back gives the value set |
| TransactionModel.Transaction.SetFraudFlag | transaction-api/src/main/java/com/example/transaction_api/model/Transaction.java:71 | only `fraudFlag` changes, and reading it back gives the value set |
| TransactionModel.Transaction.SetFraudReason | transaction-api/src/main/java/com/example/transaction_api/model/Transaction.java:74 | only `fraudReason` changes, and reading it back gives the value set |
| TransactionModel.Transaction.SetMlPrediction | transaction-api/src/main/java/com/example/transaction_api/model/Transaction.java:77 | only `mlPrediction` changes, and reading it back gives the value set |
| TransactionModel.Violations | transaction-api/src/main/java/com/example/transaction_api/model/Transaction.java:7-23 | no errors exactly when the object is valid (non-blank id, timestamp and accounts, currency matching the pattern, amount above 0); each error names one of the six constrained fields, and no two errors name the same field |
| TransactionModel.FieldErrorsExact | transaction-api/src/main/java/com/example/transaction_api/model/Transaction.java:7-23 | each of the six constrained fields is reported under its own name with its constraint's message ("must not be blank", "Invalid currency", "must be greater than 0") exactly when that constraint fails |
| TransactionModel.CurrencyPatternExact | transaction-api/src/main/java/com/example/transaction_api/model/Transaction.java:13-14 | a present currency matches exactly when it is INR, USD, EUR or GBP |
| TransactionModel.BlankExamples | transaction-api/src/main/java/com/example/transaction_api/model/Transaction.java:7-23 | null, empty and whitespace-only strings are blank; a string with a visible character is not |
| TransactionModel.UnconstrainedFieldsIgnored | transaction-api/src/main/java/com/example/transaction_api/model/Transaction.java:25-34 | type, channel, status, IP, location, flag, reason and ML verdict never change the validation outcome |
| Repository.OracleText | transaction-api/src/main/java/com/example/transaction_api/repository/TransactionRepository.java:30-42 | a string bound to a character column is NULL exactly when it is null or empty, and otherwise unchanged |
| Repository.ToRow | transaction-api/src/main/java/com/example/transaction_api/repository/TransactionRepository.java:20-44 | the stored timestamp is the database clock, not the supplied one; FRAUD_FLAG is 1 iff the flag is set and 0 otherwise; an empty sender, status or reason is stored as NULL |
| Repository.MapRow | transaction-api/src/main/java/com/example/transaction_api/repository/TransactionRepository.java:54-72 | a read-back object has no ML verdict, its flag is set iff the column is non-zero, and its timestamp is the stored clock value as text |
| Repository.MapRows | transaction-api/src/main/java/com/example/transaction_api/repository/TransactionRepository.java:51 | every row is mapped, one object per row, in order |
| Repository.InsertThenRead | transaction-api/src/main/java/com/example/transaction_api/repository/TransactionRepository.java:20-72 | reading an inserted row back returns every string field with an empty string turned into null, the timestamp as the clock and no ML verdict, and every other field unchanged; a transaction without empty strings comes back changed only in timestamp and ML verdict |
| Repository.FindAll | transaction-api/src/main/java/com/example/transaction_api/repository/TransactionRepository.java:48-52 | one object per row of the table, in the order the table holds them |
| Repository.RowsWithStatus | transaction-api/src/main/java/com/example/transaction_api/repository/TransactionRepository.java:120-128 | each row occurs as often as in the table when its status equals the parameter, and not at all otherwise; a null or empty status matches nothing |
| Repository.FindByStatus | transaction-api/src/main/java/com/example/transaction_api/repository/TransactionRepository.java:120-128 | one object per row `RowsWithStatus` selects, mapped back in that order, each with exactly the requested status; a null or empty status gives the empty list |
| Repository.FindByStatusExact | transaction-api/src/main/java/com/example/transaction_api/repository/TransactionRepository.java:120-128 | for a non-empty status, a row is listed iff it is in the table with that status, and then exactly as many times as the table holds it; the empty status lists nothing |
| Repository.InsertByTime | transaction-api/src/main/java/com/example/transaction_api/repository/TransactionRepository.java:79 | inserting a row into a newest-first list keeps it newest first and adds exactly that row |
| Repository.SortNewestFirst | transaction-api/src/main/java/com/example/transaction_api/repository/TransactionRepository.java:79 | `ORDER BY TIMESTAMP_VAL DESC`: the result is a permutation of the input and newest first |
| Repository.FlaggedRows | transaction-api/src/main/java/com/example/transaction_api/repository/TransactionRepository.java:78 | a row is kept iff it is in the table with FRAUD_FLAG = 1, and then exactly as many times as the table holds it |
| Repository.FindFraudTransactions | transaction-api/src/main/java/com/example/transaction_api/repository/TransactionRepository.java:74-83 | item i is the i-th flagged row in newest-first order, mapped back; one object per flagged row, each with its flag set |
| Repository.FraudListExact | transaction-api/src/main/java/com/example/transaction_api/repository/TransactionRepository.java:74-83 | the fraud list is a permutation of the flagged rows, newest first, and holds each row with FRAUD_FLAG = 1 exactly as many times as the table does |
| Repository.CountRecentTransactions | transaction-api/src/main/java/com/example/transaction_api/repository/TransactionRepository.java:85-94 | no more than the table holds, zero for a null sender; what is counted is fixed by `CountAfterInsert` |
| Repository.RecentRowsExact | transaction-api/src/main/java/com/example/transaction_api/repository/TransactionRepository.java:85-94 | a row is in the five-minute window iff it is in the table, its sender equals the sender (which is neither null nor empty), and its timestamp is at least the clock minus 300 seconds |
| Repository.AvgAmountLast5Min | transaction-api/src/main/java/com/example/transaction_api/repository/TransactionRepository.java:97-106 | the average is null exactly when the five-minute window is empty; otherwise times the count it gives the window's sum |
| Repository.AverageWithinBounds | transaction-api/src/main/java/com/example/transaction_api/repository/TransactionRepository.java:97-106 | the average lies between any lower and upper bound on the window's amounts |
| Repository.MeanWithinBounds | transaction-api/src/main/java/com/example/transaction_api/repository/TransactionRepository.java:97-106 | the mean of a non-empty list of rows lies between bounds on its amounts |
| Repository.CountRecentFailedTxns | transaction-api/src/main/java/com/example/transaction_api/repository/TransactionRepository.java:108-118 | never more than the table, nor more than the sender's ten-minute window; what is counted is fixed by `CountAfterInsert` |
| Repository.RecentFailedRowsExact | transaction-api/src/main/java/com/example/transaction_api/repository/TransactionRepository.java:108-118 | a row is in the failed window iff it is in the table, its sender equals the sender (neither null nor empty), its status is FAILED, and its timestamp is at least the clock minus 600 seconds |
| Repository.CountAfterInsert | transaction-api/src/main/java/com/example/transaction_api/repository/TransactionRepository.java:85-118 | appending any row adds one to the five-minute count iff it is the (non-empty) sender's and at most 300 s old, and one to the failed count iff it is the sender's, FAILED and at most 600 s old; otherwise nothing (with the empty table counting zero, this fixes both counts) |
| Repository.StoredNowCounts | transaction-api/src/main/java/com/example/transaction_api/repository/TransactionRepository.java:85-118 | a row the sender stores at the clock adds exactly one to its five-minute count, and one to its failed count when its status is FAILED; an empty sender counts nowhere |
| Repository.TransactionRepository.constructor | transaction-api/src/main/java/com/example/transaction_api/repository/TransactionRepository.java:15-17 | the table starts empty |
| Repository.TransactionRepository.InsertTransaction | transaction-api/src/main/java/com/example/transaction_api/repository/TransactionRepository.java:20-44 | the table grows by exactly the row built from the transaction and the clock |
| Service.Alert | transaction-api/src/main/java/com/example/transaction_api/service/TransactionService.java:22-59 | every rule's alert text is non-empty |
| Service.Gather | transaction-api/src/main/java/com/example/transaction_api/service/TransactionService.java:33-54 | the average the rules see is null exactly when the sender has no row in the last five minutes |
| Service.Verdict | transaction-api/src/main/java/com/example/transaction_api/service/TransactionService.java:62-70 | "No fraud detected" when no rule fires, otherwise the concatenated alerts |
| Service.Flagged | transaction-api/src/main/java/com/example/transaction_api/service/TransactionService.java:62-70 | only the flag and the reason change; the flag is set iff some rule fires; the reason is then the alert text, otherwise "NONE" |
| Service.FiredIff | transaction-api/src/main/java/com/example/transaction_api/service/TransactionService.java:22-59 | a rule's alert is present exactly when its condition holds |
| Service.RuleConditions | transaction-api/src/main/java/com/example/transaction_api/service/TransactionService.java:22-59 | rule 1 iff amount > 50000; rule 2 iff the IP is present and starts "172."; rule 3 iff the five-minute count >= 3; rule 4 iff the average is present, positive and amount > 3 x average; rule 5 iff the status equals "SUCCESS" ignoring case and the failed count >= 2 |
| Service.FiredInRuleOrder | transaction-api/src/main/java/com/example/transaction_api/service/TransactionService.java:20-65 | the alerts appear in rule order 1 to 5, each at most once |
| Service.AlertTextEmpty | transaction-api/src/main/java/com/example/transaction_api/service/TransactionService.java:62 | the alert text is empty exactly when no rule fired |
| Service.AlertTextAppend | transaction-api/src/main/java/com/example/transaction_api/service/TransactionService.java:20-65 | the alert text of two rule lists is the concatenation of their texts |
| Service.AlertIf | transaction-api/src/main/java/com/example/transaction_api/service/TransactionService.java:22-59 | one rule's contribution: its alert when it fires, nothing otherwise |
| Service.AlertTextByRule | transaction-api/src/main/java/com/example/transaction_api/service/TransactionService.java:20-59 | appending the alerts rule by rule, as the method does, gives the alert text of the fired rules |
| Service.VerdictOfAlerts | transaction-api/src/main/java/com/example/transaction_api/service/TransactionService.java:62-70 | the returned text and the flagged transaction as functions of the accumulated buffer |
| Service.MatchAlert | transaction-api/src/main/java/com/example/transaction_api/service/TransactionService.java:24-57 | the rule found is one whose alert starts the text |
| Service.AlertsDiffer | transaction-api/src/main/java/com/example/transaction_api/service/TransactionService.java:24-57 | two different alerts differ at some common position |
| Service.MatchAlertExact | transaction-api/src/main/java/com/example/transaction_api/service/TransactionService.java:24-57 | text starting with a rule's alert is matched to that rule and no other |
| Service.DecodeAlertText | transaction-api/src/main/java/com/example/transaction_api/service/TransactionService.java:20-65 | a fraud reason reads back as exactly the fired rules, in order, so no information is lost |
| Service.EqualsIgnoreCaseExamples | transaction-api/src/main/java/com/example/transaction_api/service/TransactionService.java:51 | "success" in any letter case passes rule 5's status test; "FAILED" and null do not |
| Service.EqualsIgnoreCase | transaction-api/src/main/java/com/example/transaction_api/service/TransactionService.java:51 | false for null and for a string of another length; true for the same string |
| Service.TransactionService.constructor | transaction-api/src/main/java/com/example/transaction_api/service/TransactionService.java:14-16 | the service holds the given repository |
| Service.TransactionService.TransactionAlerts | transaction-api/src/main/java/com/example/transaction_api/service/TransactionService.java:22-30 | the buffer after rules 1 and 2: "High amount. " iff amount > 50000, then "Suspicious IP. " iff the IP is present and starts with "172." |
| Service.TransactionService.HistoryAlerts | transaction-api/src/main/java/com/example/transaction_api/service/TransactionService.java:32-59 | the buffer after rules 3 to 5 on the repository's answers: velocity iff count >= 3, spike iff the average is present, positive and amount > 3 x average, failed-before-success iff the status is SUCCESS ignoring case and the failed count >= 2 |
| Service.TransactionService.CheckFraudRules | transaction-api/src/main/java/com/example/transaction_api/service/TransactionService.java:18-71 | the transaction becomes `Flagged` (only flag and reason change) and the result is `Verdict`, both on the table as it is |
| Service.TransactionService.SaveTransaction | transaction-api/src/main/java/com/example/transaction_api/service/TransactionService.java:76-78 | the repository's table grows by exactly the transaction's row |
| Service.TransactionService.GetAllTransactions | transaction-api/src/main/java/com/example/transaction_api/service/TransactionService.java:80-82 | the repository's `findAll` |
| Service.TransactionService.GetFraudTransactions | transaction-api/src/main/java/com/example/transaction_api/service/TransactionService.java:84-86 | the repository's fraud list, unchanged |
| Controller.SavedText | transaction-api/src/main/java/com/example/transaction_api/controller/TransactionController.java:37-39 | the success body is "Transaction saved successfully. " followed by the fraud message, nothing else |
| Controller.TransactionController.constructor | transaction-api/src/main/java/com/example/transaction_api/controller/TransactionController.java:18-20 | the controller holds the given service |
| Controller.TransactionController.SaveTransaction | transaction-api/src/main/java/com/example/transaction_api/controller/TransactionController.java:22-40 | invalid: 400 with the errors, transaction and table unchanged; valid: the rules run on the table before the insert, exactly one row is appended carrying the flag and reason they set, and the reply is the saved text with their message |
| Controller.TransactionController.GetAllTransactions | transaction-api/src/main/java/com/example/transaction_api/controller/TransactionController.java:42-45 | 200 with one object per stored row, in the order the table holds them |
| Controller.TransactionController.GetFraudTransactions | transaction-api/src/main/java/com/example/transaction_api/controller/TransactionController.java:47-50 | 200 with the repository's fraud list unchanged: item i is the i-th flagged row in newest-first order, mapped back, and each is flagged |
| Controller.StoredRowFlag | transaction-api/src/main/java/com/example/transaction_api/controller/TransactionController.java:33-35 | the row a valid POST stores has flag 1 iff some rule fired on the earlier table, with the alerts as reason; otherwise flag 0 and reason "NONE" |
| ApiClient.Or | frontend-glow-up-main/src/services/transactionApi.ts:59-60 | JavaScript `||`: truthy iff either operand is, the first operand when it is truthy, else the second |
| ApiClient.DecimalString | frontend-glow-up-main/src/services/transactionApi.ts:48 | a status code's text is a non-empty run of digits |
| ApiClient.DecimalRoundTrip | frontend-glow-up-main/src/services/transactionApi.ts:48 | the digits read back as the status code |
| ApiClient.HttpErrorRoundTrip | frontend-glow-up-main/src/services/transactionApi.ts:48 | "HTTP <status>: <statusText>" reads back as exactly that status and status text |
| ApiClient.EntryText | frontend-glow-up-main/src/services/transactionApi.ts:58-61 | an element that is no object, or an object with none of the four properties, reads "field: Invalid value" |
| ApiClient.EndpointsDistinct | frontend-glow-up-main/src/services/transactionApi.ts:102-232 | the five list requests have pairwise different paths and different fallback messages |
| ApiClient.FetchList | frontend-glow-up-main/src/services/transactionApi.ts:102-232 | success iff an OK reply's body parsed; then the array's elements, or [] for any non-array body; a non-OK reply gives exactly "HTTP <status>: <statusText>" (from which status and text are recovered); a throwing `fetch` or `json()` gives the error's message or the request's fallback; no data on failure |
| ApiClient.EntryTexts | frontend-glow-up-main/src/services/transactionApi.ts:58-62 | the entries, in array order, one per element; none exactly when some element is null or undefined, where the property read throws |
| ApiClient.MessageFromBody | frontend-glow-up-main/src/services/transactionApi.ts:52-68 | reading throws iff the body or an array element is null; an array gives "Validation failed: " and its entries; otherwise a truthy `message` gives its text, a string body gives itself; the default stays iff the body is no array, has no truthy `message` and is no string |
| ApiClient.RejectedCreate | frontend-glow-up-main/src/services/transactionApi.ts:47-84 | a non-OK reply is a failure whose details are the parsed body (or null); the error is the message the body supplies; a body without one keeps exactly the HTTP text; when the JSON path throws, the text replaces the default only if non-empty |
| ApiClient.CreateResult | frontend-glow-up-main/src/services/transactionApi.ts:37-97 | success iff an OK reply's text was read, and then the data is that text, or "Transaction saved successfully" when it is empty; a non-OK reply is `RejectedCreate`; a throwing `fetch` or `text()` gives the error's message or "Failed to create transaction"; failures carry no data, and only a non-OK reply has details |
| ApiClient.CreateTransaction | frontend-glow-up-main/src/services/transactionApi.ts:37-97 | the message reassigned step by step through the nested branches equals `CreateResult` |
| ApiClient.EntryFallbacks | frontend-glow-up-main/src/services/transactionApi.ts:59-61 | an entry is `field: message` with field falling back field, objectName, "field" and message falling back defaultMessage, message, "Invalid value" |
| ApiClient.ValidationReplyMessage | frontend-glow-up-main/src/services/transactionApi.ts:56-63 | a 400 carrying the server's validation errors gives "Validation failed: " and the `field: message` pairs in the server's order, with the array kept as details |
| History.GetDateRange | frontend-glow-up-main/src/pages/TransactionHistory.tsx:66-80 | a preset ends now and starts 1, 3 or 6 months back; custom returns the user's bounds verbatim; any other option reads as one month |
| History.PresetWindowOrdered | frontend-glow-up-main/src/pages/TransactionHistory.tsx:66-79 | when month subtraction moves into the past, every non-custom option gives both bounds with from before to |
| History.FilterByDuration | frontend-glow-up-main/src/pages/TransactionHistory.tsx:82-90 | with a bound unset the list is returned whole; otherwise a transaction is kept iff its time is strictly inside the window, and then as many times as it occurs; always an order-preserving subsequence, so exactly the `filter` result |
| History.TabFor | frontend-glow-up-main/src/pages/TransactionHistory.tsx:46-52 | every endpoint has a tab among the five tab identifiers |
| History.EndpointFor | frontend-glow-up-main/src/pages/TransactionHistory.tsx:106-121 | the list-all request exactly for tabs other than success, failed, pending and fraud; each named tab is recovered from its endpoint |
| History.TabsRoundTrip | frontend-glow-up-main/src/pages/TransactionHistory.tsx:106-121 | each endpoint's tab selects that endpoint |
| History.ComputeStats | frontend-glow-up-main/src/pages/TransactionHistory.tsx:165-171 | total is the length; success + failed + pending <= total; fraud <= total; the counters themselves are fixed by `StatsOfOne` and `StatsOfAppend` |
| History.StatsOfOne | frontend-glow-up-main/src/pages/TransactionHistory.tsx:165-171 | one transaction counts 1 in the total, 1 under SUCCESS, FAILED or PENDING iff its status is exactly that, and 1 as fraud iff its flag is `true` or `1` |
| History.StatsOfAppend | frontend-glow-up-main/src/pages/TransactionHistory.tsx:165-171 | each counter of a concatenation is the sum of the counters of its parts |
| History.AfterFetch | frontend-glow-up-main/src/pages/TransactionHistory.tsx:92-137 | loading ends false; no error iff the module loaded and the request succeeded, and then the list is the filtered data; a failed request shows its error, or "Failed to fetch transactions" when that is empty; a failed import shows "An unexpected error occurred. Please try again."; the list is empty on any error; nothing else changes |
| History.ShownWithinWindow | frontend-glow-up-main/src/pages/TransactionHistory.tsx:123-126 | a shown transaction came from a successful result and, with both bounds set, lies strictly inside the window |
| History.HistoryView.constructor | frontend-glow-up-main/src/pages/TransactionHistory.tsx:55-64 | the all tab, one month, no bounds, nothing loaded, no error, refresh key 0 |
| History.HistoryView.SelectTab | frontend-glow-up-main/src/pages/TransactionHistory.tsx:301 | only the active tab changes |
| History.HistoryView.SelectDuration | frontend-glow-up-main/src/pages/TransactionHistory.tsx:240 | only the selected duration changes |
| History.HistoryView.SetCustomFrom | frontend-glow-up-main/src/pages/TransactionHistory.tsx:265 | only the custom start changes; the end is kept |
| History.HistoryView.SetCustomTo | frontend-glow-up-main/src/pages/TransactionHistory.tsx:283 | only the custom end changes; the start is kept |
| History.HistoryView.HandleRefresh | frontend-glow-up-main/src/pages/TransactionHistory.tsx:143-145 | the refresh key goes up by exactly one and nothing else changes |
| History.HistoryView.FetchTransactions | frontend-glow-up-main/src/pages/TransactionHistory.tsx:92-137 | the new state is `AfterFetch` of the old one |
| History.HistoryView.FetchAllForStats | frontend-glow-up-main/src/pages/TransactionHistory.tsx:150-163 | a successful request replaces the counters' list; any failure leaves it as it was; nothing else changes |
| Form.With | frontend-glow-up-main/src/components/TransactionForm.tsx:52-53 | the named input reads the new value and every other input reads as before |
| Form.ReplaceFirst | frontend-glow-up-main/src/components/TransactionForm.tsx:82 | only the first occurrence of the character is replaced; the length is kept |
| Form.ShapeTimestamp | frontend-glow-up-main/src/components/TransactionForm.tsx:82 | the first 19 characters, with the first `T` among them turned into a space and every other character kept |
| Form.TimestampShape | frontend-glow-up-main/src/components/TransactionForm.tsx:80-82 | an ISO time becomes `yyyy-MM-dd HH:mm:ss`, keeping date and time to the second character for character |
| Form.Payload | frontend-glow-up-main/src/components/TransactionForm.tsx:84-95 | id, accounts, currency, type and channel as typed, the parsed amount and the shaped timestamp; an empty IP address or location is left out, a non-empty one is sent as typed |
| Form.Submitted | frontend-glow-up-main/src/components/TransactionForm.tsx:59-127 | missing required fields are reported before a bad amount, and either posts nothing; a valid form whose client module fails to load posts nothing, keeps the inputs and shows "An unexpected error occurred. Please try again."; a post happens iff both checks pass and the client loaded, with the shaped payload; success resets the inputs, runs the callback once and shows the server's text; failure keeps the inputs and shows the error or the fallback; loading ends false |
| Form.TransactionForm.constructor | frontend-glow-up-main/src/components/TransactionForm.tsx:48-50 | initial inputs (INR, TRANSFER, MOBILE), no message, not loading |
| Form.TransactionForm.HandleChange | frontend-glow-up-main/src/components/TransactionForm.tsx:52-57 | one input changes and a shown message is cleared; nothing else changes |
| Form.TransactionForm.HandleSubmit | frontend-glow-up-main/src/components/TransactionForm.tsx:59-127 | the new state and the posted body are `Submitted` of the old state |
| Form.TransactionForm.HandleClear | frontend-glow-up-main/src/components/TransactionForm.tsx:129-132 | initial inputs and no message; loading and the callback count are kept |

## Left out

- HTTP, Spring MVC binding and JSON serialisation are left out.
  - A handler's result is a `Response` value.
  - The server's validation errors reach the client as objects with `field`, `objectName` and `defaultMessage`. The other properties of Spring's `ObjectError` are not read by the client and are not modelled.
- JDBC and Oracle SQL are left out.
  - The string columns are taken to be Oracle character columns, as the schema is not part of this model. So an empty string is stored as NULL, and a bound empty string matches nothing.
  - Rows are values.
  - `SYSDATE - 5/(24*60)` becomes the clock minus 300 seconds, and the ten-minute window becomes the clock minus 600.
  - A query result is a fresh value, as the row mapper builds fresh objects.
- The service queries the table at the same clock value that the following insert uses. In the source these are separate statements, each reading `SYSDATE`.
- Repository.SortNewestFirst: does not fix the order of rows with equal timestamps, because `ORDER BY TIMESTAMP_VAL DESC` leaves it unspecified. Only the permutation and the newest-first order are stated.
- Repository.FindAll: the table keeps rows in insertion order and `findAll` returns them in that order. `SELECT * FROM TRANSACTIONS` has no `ORDER BY`, so this is one of the orders the database may return. The same holds for Repository.FindByStatus and for Controller.TransactionController.GetAllTransactions.
- Floating point is left out.
  - `double` amounts and `AVG` are exact reals, with no rounding.
  - `parseFloat` is a parameter returning `None` for `NaN`.
  - `NaN` is not a number value in the client's `Json` type.
- TransactionModel.Violations: lists the errors in field declaration order. Hibernate Validator's order is unspecified.
- A null currency passes `@Pattern`, because Bean Validation treats null as valid for that constraint. The model follows the code, so a bean with no currency is valid.
- Service.EqualsIgnoreCase: case folding covers ASCII letters plus the two non-ASCII characters whose upper case is an ASCII letter (U+0131 and U+017F), and the two whose lower case is an ASCII letter (U+0130 and U+212A). Other Unicode case mappings are not modelled.
- `checkFraudRules` is modelled as two helper methods (rules 1–2, rules 3–5) called in sequence by `CheckFraudRules`. The buffer and the order are unchanged.
- `mlPrediction` is only carried as a field. The ML verdict, `AutoTransactionGenerator`, `TransactionTable`, `StatCard`, the `TransactionGeneration` page and all rendering are not part of this model.
- The client calls `/success`, `/failed` and `/pending`, but the server has no handlers for them. Only their client side is modelled.
- A failed `response.json()` is followed by `response.text()`, and the model takes the outcome of that second read as an independent input. Under the Fetch standard a body that `json()` has read is unusable, so that read rejects and the HTTP default message stays. The model covers that case, since it is one of the inputs.
- ApiClient.MessageFromBody: a truthy `message` that is not a string is kept as its template-literal text. The source keeps the raw value.
- A timestamp is parsed by a parameter.
  - Time zones and the date library's month arithmetic are parameters too.
  - An unparsable timestamp is an invalid date, which is never inside a window.
- Concurrency is left out.
  - Each fetch completion is one atomic state change.
  - React's batching, the `useEffect` wiring that decides when a fetch runs, and races between overlapping fetches are not modelled.
- The dynamic `import()` of the client module is a boolean input. `e.preventDefault()` and the form's `required` attributes are DOM behaviour and are not modelled.
- The page keeps its own narrower `Transaction` interface. The model uses the client's full transaction type for both.
- ApiClient.FetchList: the elements of a list body are always transaction objects. A `null` element, which makes the page's window filter throw and show the unexpected-error message, cannot be expressed.
- History.FilterByDuration: a null `timestamp` and an absent one are both `None` and both read as an invalid date. In JavaScript `new Date(null)` is the epoch, so a null timestamp would be compared as 1970-01-01.

=== FILE: api_client.dfy ===
/** The browser-side client of the transaction API (`transactionApi.ts`): one
    `POST` that turns every kind of failure into a message, and five list
    requests. The network and the body parsers are replaced by what they
    deliver: a reply is an input value, and so is each attempt to read its
    body as JSON or as text. */
module ApiClient {
  import opened Wrappers
  import opened Seqs
  import opened TransactionModel

  /** `fraudFlag` as the client types it: a boolean or a number. */
  datatype FlagValue = FlagBool(b: bool) | FlagNum(n: real)

  /** A transaction as the list requests deliver it; an optional property is
      `None` when absent. */
  datatype ClientTxn = ClientTxn(
    transactionId: string,
    timestamp: Option<string>,
    timestampVal: Option<string>,
    currency: string,
    amount: real,
    senderAccount: string,
    receiverAccount: string,
    transactionType: Option<string>,
    channel: Option<string>,
    status: Option<string>,
    ipAddress: Option<string>,
    location: Option<string>,
    fraudFlag: Option<FlagValue>,
    fraudReason: Option<string>,
    mlPrediction: Option<string>)

  /** What `createTransaction` sends: a transaction without status, flag,
      reason and stored timestamp. */
  datatype NewTransaction = NewTransaction(
    transactionId: string,
    timestamp: string,
    amount: real,
    currency: string,
    senderAccount: string,
    receiverAccount: string,
    transactionType: string,
    channel: string,
    ipAddress: Option<string>,
    location: Option<string>)

  /** A JavaScript value, as parsed from a JSON body or read from a property. */
  datatype Json =
    | JNull
    | JUndefined
    | JBool(b: bool)
    | JNum(n: real)
    | JStr(s: string)
    | JArray(items: seq<Json>)
    | JObject(props: map<string, Json>)

  predicate Nullish(v: Json) {
    v.JNull? || v.JUndefined?
  }

  /** JavaScript truthiness (`NaN` is not modelled). */
  predicate Truthy(v: Json) {
    match v
    case JNull => false
    case JUndefined => false
    case JBool(b) => b
    case JNum(n) => n != 0.0
    case JStr(s) => s != ""
    case JArray(_) => true
    case JObject(_) => true
  }

  /** `a || b`: the first operand when it is truthy, else the second. */
  function Or(a: Json, b: Json): (r: Json)
    ensures Truthy(r) <==> Truthy(a) || Truthy(b)
    ensures Truthy(a) ==> r == a
    ensures !Truthy(a) ==> r == b
  {
    if Truthy(a) then a else b
  }

  /** Reading property `key` of a value that is neither null nor undefined
      (reading one of those throws). Only objects carry the properties the
      client reads; any other value answers `undefined`. */
  function Prop(v: Json, key: string): Json
    requires !Nullish(v)
  {
    if v.JObject? && key in v.props then v.props[key] else JUndefined
  }

  /** The text a template literal `${v}` produces; the text of a number is
      left to the parameter `num`. */
  function Display(v: Json, num: real -> string): string
    decreases v, 1
  {
    match v
    case JNull => "null"
    case JUndefined => "undefined"
    case JBool(b) => if b then "true" else "false"
    case JNum(n) => num(n)
    case JStr(s) => s
    case JArray(items) => Join(ElementTexts(items, num), ",")
    case JObject(_) => "[object Object]"
  }

  /** The elements of an array as `Array.prototype.toString` writes them:
      null and undefined become empty. */
  function ElementTexts(items: seq<Json>, num: real -> string): (r: seq<string>)
    decreases items, 0
    ensures |r| == |items|
  {
    if items == [] then []
    else [if Nullish(items[0]) then "" else Display(items[0], num)] + ElementTexts(items[1..], num)
  }

  /** A thrown value: an `Error` with its message, or anything else. */
  datatype Thrown = ErrorInstance(message: string) | OtherThrown

  /** `error instanceof Error ? error.message : fallback`. */
  function ThrownMessage(e: Thrown, fallback: string): string {
    match e
    case ErrorInstance(m) => m
    case OtherThrown => fallback
  }

  /** Reading a body: the value read, or what the reader threw. */
  datatype Parse<T> = Parsed(value: T) | Threw(error: Thrown)

  /** What `fetch` delivered: it threw, or a reply came with a status line and
      a body, `B` saying how the body reads. */
  datatype Reply<B> =
    | FetchThrew(error: Thrown)
    | Replied(status: nat, statusText: string, body: B)

  /** The client's result type; `details` is `None` where the source leaves it
      out and `Some(JNull)` where it sets it to `null`. */
  datatype ApiResponse<T> = ApiResponse(success: bool, data: Option<T>, error: Option<string>, details: Option<Json>)

  function Failure<T>(msg: string): ApiResponse<T> {
    ApiResponse(false, None, Some(msg), None)
  }

  function Success<T>(data: T): ApiResponse<T> {
    ApiResponse(true, Some(data), None, None)
  }

  /** `response.ok`. */
  predicate IsOk(status: nat) {
    200 <= status <= 299
  }

  // ---------------------------------------------------------------------------
  // The default error text "HTTP <status>: <statusText>"
  // ---------------------------------------------------------------------------

  predicate IsDigit(c: char) {
    '0' <= c <= '9'
  }

  predicate AllDigits(s: string) {
    forall i :: 0 <= i < |s| ==> IsDigit(s[i])
  }

  function DigitChar(d: nat): (c: char)
    requires d < 10
    ensures IsDigit(c)
  {
    ('0' as int + d) as char
  }

  /** A status code in decimal, as a template literal writes it. */
  function DecimalString(n: nat): (s: string)
    ensures s != [] && AllDigits(s)
  {
    if n < 10 then [DigitChar(n)] else DecimalString(n / 10) + [DigitChar(n % 10)]
  }

  /** The number a string of decimal digits denotes. */
  function DecimalValue(s: string): nat
    requires AllDigits(s)
  {
    if s == [] then 0 else DecimalValue(s[..|s| - 1]) * 10 + (s[|s| - 1] as int - '0' as int)
  }

  lemma {:induction false} DecimalRoundTrip(n: nat)
    ensures DecimalValue(DecimalString(n)) == n
  {
    if n >= 10 {
      var s := DecimalString(n);
      assert s[..|s| - 1] == DecimalString(n / 10);
      DecimalRoundTrip(n / 10);
    }
  }

  /** The longest prefix of `s` made of digits. */
  function DigitPrefix(s: string): (d: string)
    ensures d <= s && AllDigits(d)
    ensures |d| < |s| ==> !IsDigit(s[|d|])
  {
    if s == [] || !IsDigit(s[0]) then [] else [s[0]] + DigitPrefix(s[1..])
  }

  lemma DigitPrefixOfConcat(a: string, b: string)
    requires AllDigits(a)
    requires b != [] && !IsDigit(b[0])
    ensures DigitPrefix(a + b) == a
  {
    var d := DigitPrefix(a + b);
    assert |d| == |a|;
    assert d == (a + b)[..|a|] == a;
  }

  function HttpErrorText(status: nat, statusText: string): string {
    "HTTP " + DecimalString(status) + ": " + statusText
  }

  /** Reads a status code and a status text back out of an error text. */
  function DecodeHttpError(m: string): Option<(nat, string)> {
    if |m| < 5 || m[..5] != "HTTP " then None
    else
      var d := DigitPrefix(m[5..]);
      var rest := m[5 + |d|..];
      if d == [] || |rest| < 2 || rest[..2] != ": " then None
      else Some((DecimalValue(d), rest[2..]))
  }

  /** The default error text loses nothing: status and status text come back. */
  lemma HttpErrorRoundTrip(status: nat, statusText: string)
    ensures DecodeHttpError(HttpErrorText(status, statusText)) == Some((status, statusText))
  {
    var digits := DecimalString(status);
    var m := HttpErrorText(status, statusText);
    assert m[..5] == "HTTP ";
    assert m[5..] == digits + (": " + statusText);
    DigitPrefixOfConcat(digits, ": " + statusText);
    assert m[5 + |digits|..] == ": " + statusText;
    DecimalRoundTrip(status);
  }

  // ---------------------------------------------------------------------------
  // The five list requests
  // ---------------------------------------------------------------------------

  /** The list endpoints the client calls. */
  datatype Endpoint =
    | AllTransactions
    | FraudTransactions
    | SuccessTransactions
    | FailedTransactions
    | PendingTransactions

  /** The request path, after the base URL. */
  function Path(ep: Endpoint): string {
    match ep
    case AllTransactions => "/api/transactions"
    case FraudTransactions => "/api/transactions/fraud"
    case SuccessTransactions => "/api/transactions/success"
    case FailedTransactions => "/api/transactions/failed"
    case PendingTransactions => "/api/transactions/pending"
  }

  /** The message used when something other than an `Error` was thrown. */
  function FetchFallback(ep: Endpoint): string {
    match ep
    case AllTransactions => "Failed to fetch transactions"
    case FraudTransactions => "Failed to fetch fraud transactions"
    case SuccessTransactions => "Failed to fetch success transactions"
    case FailedTransactions => "Failed to fetch failed transactions"
    case PendingTransactions => "Failed to fetch pending transactions"
  }

  /** Each endpoint has its own path and its own fallback message. */
  lemma EndpointsDistinct(a: Endpoint, b: Endpoint)
    ensures Path(a) == Path(b) ==> a == b
    ensures FetchFallback(a) == FetchFallback(b) ==> a == b
  {
    if {a, b} == {SuccessTransactions, PendingTransactions} {
      assert Path(a)[18] != Path(b)[18];
      assert FetchFallback(a)[16] != FetchFallback(b)[16];
    }
  }

  /** A list body: a JSON array of transactions, or any other JSON value. */
  datatype ListJson<T> = JsonArray(items: seq<T>) | NotArray

  /** One `get*Transactions` call: success exactly when an OK reply's body
      parsed, with the array's elements or, for any other JSON value, none;
      otherwise a failure carrying the default HTTP text or what was thrown. */
  function FetchList<T>(ep: Endpoint, reply: Reply<Parse<ListJson<T>>>): (res: ApiResponse<seq<T>>)
    ensures res.success <==> reply.Replied? && IsOk(reply.status) && reply.body.Parsed?
    ensures res.success ==>
      && res.error == None
      && res.data == Some(if reply.body.value.JsonArray? then reply.body.value.items else [])
    ensures !res.success ==> res.data == None && res.error.Some?
    ensures reply.FetchThrew? ==> res.error == Some(ThrownMessage(reply.error, FetchFallback(ep)))
    ensures reply.Replied? && !IsOk(reply.status) ==>
      && res.error == Some(HttpErrorText(reply.status, reply.statusText))
      && DecodeHttpError(res.error.value) == Some((reply.status, reply.statusText))
    ensures reply.Replied? && IsOk(reply.status) && reply.body.Threw? ==>
      res.error == Some(ThrownMessage(reply.body.error, FetchFallback(ep)))
    ensures res.details == None
  {
    match reply
    case FetchThrew(e) => Failure(ThrownMessage(e, FetchFallback(ep)))
    case Replied(status, statusText, body) =>
      if !IsOk(status) then
        HttpErrorRoundTrip(status, statusText);
        Failure(HttpErrorText(status, statusText))
      else
        match body
        case Threw(e) => Failure(ThrownMessage(e, FetchFallback(ep)))
        case Parsed(JsonArray(items)) => Success(items)
        case Parsed(NotArray) => Success([])
  }

  // ---------------------------------------------------------------------------
  // Creating a transaction
  // ---------------------------------------------------------------------------

  /** How the body of the `POST` reply reads as JSON and as text. */
  datatype CreateBody = CreateBody(json: Parse<Json>, text: Parse<string>)

  const CreateFallback := "Failed to create transaction"
  const SavedFallback := "Transaction saved successfully"
  const ValidationPrefix := "Validation failed: "
  const FieldFallback := "field"
  const MessageFallback := "Invalid value"

  /** One entry of a validation-error array, `<field>: <message>`. */
  function EntryText(err: Json, num: real -> string): (r: string)
    requires !Nullish(err)
    ensures !err.JObject? || (forall key :: key in ["field", "objectName", "defaultMessage", "message"] ==> key !in err.props)
      ==> r == FieldFallback + ": " + MessageFallback
  {
    var field := Or(Or(Prop(err, "field"), Prop(err, "objectName")), JStr(FieldFallback));
    var message := Or(Or(Prop(err, "defaultMessage"), Prop(err, "message")), JStr(MessageFallback));
    Display(field, num) + ": " + Display(message, num)
  }

  /** The entries of a validation-error array, in array order; `None` when an
      element is null or undefined, since reading its property throws. */
  function EntryTexts(items: seq<Json>, num: real -> string): (r: Option<seq<string>>)
    ensures r.Some? <==> forall i :: 0 <= i < |items| ==> !Nullish(items[i])
    ensures r.Some? ==>
      && |r.value| == |items|
      && forall i :: 0 <= i < |items| ==> r.value[i] == EntryText(items[i], num)
  {
    if items == [] then Some([])
    else if Nullish(items[0]) then None
    else
      match EntryTexts(items[1..], num)
      case None => None
      case Some(rest) => Some([EntryText(items[0], num)] + rest)
  }

  function ValidationMessage(entries: seq<string>): string {
    ValidationPrefix + Join(entries, ", ")
  }

  /** What the JSON error body says about the message: reading it throws, it
      leaves the default in place, or it supplies a message. */
  datatype BodyMessage = BodyThrows | KeepsDefault | Supplies(text: string)

  function MessageFromBody(errorData: Json, num: real -> string): (m: BodyMessage)
    ensures m.BodyThrows? <==>
      Nullish(errorData) || (errorData.JArray? && exists i :: 0 <= i < |errorData.items| && Nullish(errorData.items[i]))
    ensures errorData.JArray? && m.Supplies? ==> ValidationPrefix <= m.text
    ensures errorData.JArray? && EntryTexts(errorData.items, num).Some? ==>
      m == Supplies(ValidationMessage(EntryTexts(errorData.items, num).value))
    ensures !errorData.JArray? && !Nullish(errorData) && Truthy(Prop(errorData, "message")) ==>
      m == Supplies(Display(Prop(errorData, "message"), num))
    ensures errorData.JStr? ==> m == Supplies(errorData.s)
    ensures m.KeepsDefault? <==>
      !errorData.JArray? && !Nullish(errorData) && !Truthy(Prop(errorData, "message")) && !errorData.JStr?
  {
    if errorData.JArray? then
      match EntryTexts(errorData.items, num)
      case None => BodyThrows
      case Some(entries) => Supplies(ValidationMessage(entries))
    else if Nullish(errorData) then BodyThrows
    else if Truthy(Prop(errorData, "message")) then Supplies(Display(Prop(errorData, "message"), num))
    else if errorData.JStr? then Supplies(errorData.s)
    else KeepsDefault
  }

  /** The result for a reply whose status is not OK. */
  function RejectedCreate(status: nat, statusText: string, body: CreateBody, num: real -> string): (res: ApiResponse<string>)
    ensures !res.success && res.data == None && res.error.Some?
    ensures res.details == Some(if body.json.Parsed? then body.json.value else JNull)
    ensures body.json.Threw? || MessageFromBody(body.json.value, num).BodyThrows? ==>
      res.error == Some(if body.text.Parsed? && body.text.value != "" then body.text.value else HttpErrorText(status, statusText))
    ensures body.json.Parsed? && MessageFromBody(body.json.value, num).Supplies? ==>
      res.error == Some(MessageFromBody(body.json.value, num).text)
    ensures body.json.Parsed? && MessageFromBody(body.json.value, num).KeepsDefault? ==>
      && res.error == Some(HttpErrorText(status, statusText))
      && DecodeHttpError(res.error.value) == Some((status, statusText))
  {
    var default := HttpErrorText(status, statusText);
    var fromBody := if body.json.Parsed? then MessageFromBody(body.json.value, num) else BodyThrows;
    var msg :=
      match fromBody
      case Supplies(m) => m
      case KeepsDefault => default
      case BodyThrows => if body.text.Parsed? && body.text.value != "" then body.text.value else default;
    HttpErrorRoundTrip(status, statusText);
    ApiResponse(false, None, Some(msg), Some(if body.json.Parsed? then body.json.value else JNull))
  }

  /** What `createTransaction` returns for a reply. A success always carries
      a non-empty text, so a caller's own fallback is never shown. */
  function CreateResult(reply: Reply<CreateBody>, num: real -> string): (res: ApiResponse<string>)
    ensures res.success <==> reply.Replied? && IsOk(reply.status) && reply.body.text.Parsed?
    ensures res.success ==> res.data.Some? && res.data.value != "" && res.error == None
    ensures res.success ==>
      res.data == Some(if reply.body.text.value != "" then reply.body.text.value else SavedFallback)
    ensures !res.success ==> res.data == None && res.error.Some?
    ensures reply.FetchThrew? ==> res.error == Some(ThrownMessage(reply.error, CreateFallback))
    ensures reply.Replied? && IsOk(reply.status) && reply.body.text.Threw? ==>
      res.error == Some(ThrownMessage(reply.body.text.error, CreateFallback))
    ensures reply.Replied? && !IsOk(reply.status) ==>
      res == RejectedCreate(reply.status, reply.statusText, reply.body, num)
    ensures !(reply.Replied? && !IsOk(reply.status)) ==> res.details == None
  {
    match reply
    case FetchThrew(e) => Failure(ThrownMessage(e, CreateFallback))
    case Replied(status, statusText, body) =>
      if !IsOk(status) then RejectedCreate(status, statusText, body, num)
      else
        match body.text
        case Parsed(text) => Success(if text != "" then text else SavedFallback)
        case Threw(e) => Failure(ThrownMessage(e, CreateFallback))
  }

  /** `createTransaction`: the error message starts as the HTTP default and
      is overwritten by what the body supplies, step by step. */
  method CreateTransaction(reply: Reply<CreateBody>, num: real -> string) returns (res: ApiResponse<string>)
    ensures res == CreateResult(reply, num)
  {
    if reply.FetchThrew? {
      return Failure(ThrownMessage(reply.error, CreateFallback));
    }
    if !IsOk(reply.status) {
      var errorMessage := HttpErrorText(reply.status, reply.statusText);
      var errorDetails := JNull;
      var threw := false;
      match reply.body.json {
        case Threw(_) =>
          threw := true;
        case Parsed(errorData) =>
          errorDetails := errorData;
          if errorData.JArray? {
            var entries := EntryTexts(errorData.items, num);
            if entries.None? {
              threw := true;
            } else {
              errorMessage := ValidationMessage(entries.value);
            }
          } else if Nullish(errorData) {
            threw := true;
          } else if Truthy(Prop(errorData, "message")) {
            errorMessage := Display(Prop(errorData, "message"), num);
          } else if errorData.JStr? {
            errorMessage := errorData.s;
          }
      }
      if threw && reply.body.text.Parsed? && reply.body.text.value != "" {
        errorMessage := reply.body.text.value;
      }
      return ApiResponse(false, None, Some(errorMessage), Some(errorDetails));
    }
    match reply.body.text {
      case Threw(e) =>
        return Failure(ThrownMessage(e, CreateFallback));
      case Parsed(data) =>
        return Success(if data != "" then data else SavedFallback);
    }
  }

  // ---------------------------------------------------------------------------
  // Properties of the error messages
  // ---------------------------------------------------------------------------

  /** The first non-empty of two strings, else the fallback. */
  function FirstNonEmpty(a: string, b: string, fallback: string): string {
    if a != "" then a else if b != "" then b else fallback
  }

  /** A property's string value; empty when it is absent or not a string. */
  function StrProp(props: map<string, Json>, key: string): string {
    if key in props && props[key].JStr? then props[key].s else ""
  }

  predicate StringOrAbsent(props: map<string, Json>, key: string) {
    key in props ==> props[key].JStr?
  }

  /** For an entry whose properties are strings, the field falls back from
      `field` to `objectName` to "field", and the message from
      `defaultMessage` to `message` to "Invalid value". */
  lemma EntryFallbacks(props: map<string, Json>, num: real -> string)
    requires StringOrAbsent(props, "field") && StringOrAbsent(props, "objectName")
    requires StringOrAbsent(props, "defaultMessage") && StringOrAbsent(props, "message")
    ensures EntryText(JObject(props), num)
         == FirstNonEmpty(StrProp(props, "field"), StrProp(props, "objectName"), FieldFallback) + ": "
          + FirstNonEmpty(StrProp(props, "defaultMessage"), StrProp(props, "message"), MessageFallback)
  {
    var err := JObject(props);
    var field := Or(Or(Prop(err, "field"), Prop(err, "objectName")), JStr(FieldFallback));
    var message := Or(Or(Prop(err, "defaultMessage"), Prop(err, "message")), JStr(MessageFallback));
    assert field == JStr(FirstNonEmpty(StrProp(props, "field"), StrProp(props, "objectName"), FieldFallback));
    assert message == JStr(FirstNonEmpty(StrProp(props, "defaultMessage"), StrProp(props, "message"), MessageFallback));
  }

  /** A constraint violation as the server's JSON array carries it. */
  function FieldErrorJson(e: FieldError): Json {
    JObject(map["objectName" := JStr("transaction"), "field" := JStr(e.field), "defaultMessage" := JStr(e.defaultMessage)])
  }

  function FieldErrorsJson(errs: seq<FieldError>): (j: Json)
    ensures j.JArray? && |j.items| == |errs|
    ensures forall i :: 0 <= i < |errs| ==> j.items[i] == FieldErrorJson(errs[i])
  {
    JArray(seq(|errs|, i requires 0 <= i < |errs| => FieldErrorJson(errs[i])))
  }

  /** A 400 reply carrying the server's validation errors reaches the caller
      as "Validation failed: " and the errors' `field: message` pairs, in the
      server's order, whatever the body's text reads as. */
  lemma {:induction false} ValidationReplyMessage(errs: seq<FieldError>, statusText: string, text: Parse<string>, num: real -> string)
    requires forall e :: e in errs ==> e.field != "" && e.defaultMessage != ""
    ensures var res := CreateResult(Replied(400, statusText, CreateBody(Parsed(FieldErrorsJson(errs)), text)), num);
      && res.error == Some(ValidationMessage(seq(|errs|, i requires 0 <= i < |errs| => errs[i].field + ": " + errs[i].defaultMessage)))
      && res.details == Some(FieldErrorsJson(errs))
  {
    var j := FieldErrorsJson(errs);
    var entries := seq(|errs|, i requires 0 <= i < |errs| => errs[i].field + ": " + errs[i].defaultMessage);
    forall i | 0 <= i < |errs|
      ensures EntryText(j.items[i], num) == entries[i]
    {
      var e := errs[i];
      assert e in errs;
      var props := map["objectName" := JStr("transaction"), "field" := JStr(e.field), "defaultMessage" := JStr(e.defaultMessage)];
      assert j.items[i] == JObject(props);
      EntryFallbacks(props, num);
      assert StrProp(props, "field") == e.field;
      assert StrProp(props, "defaultMessage") == e.defaultMessage;
    }
    assert forall i :: 0 <= i < |j.items| ==> !Nullish(j.items[i]);
    var r := EntryTexts(j.items, num);
    assert r.value == entries;
    assert MessageFromBody(j, num) == Supplies(ValidationMessage(entries));
  }
}

=== FILE: controller.dfy ===
/** The REST controller under `/api/transactions`: `POST` validates, flags and
    stores a transaction; `GET` and `GET /fraud` list the stored ones. HTTP
    framing is left out: a handler's result is the status and the body. */
module Controller {
  import opened Wrappers
  import opened TransactionModel
  import opened Repository
  import opened Service

  /** What a handler answers: 400 with the validation errors, or 200 with a
      text or a list of transactions. */
  datatype Response =
    | BadRequest(errors: seq<FieldError>)
    | OkText(text: string)
    | OkList(items: seq<TxnData>)

  const SavedPrefix := "Transaction saved successfully. "

  /** The body of a successful `POST`, given the service's fraud message. */
  function SavedText(fraudMsg: string): (text: string)
    ensures |text| == |SavedPrefix| + |fraudMsg|
    ensures text[..|SavedPrefix|] == SavedPrefix
    ensures text[|SavedPrefix|..] == fraudMsg
  {
    SavedPrefix + fraudMsg
  }

  class TransactionController {
    const service: TransactionService

    constructor (service: TransactionService)
      ensures this.service == service
    {
      this.service := service;
    }

    /** `POST /api/transactions`. An invalid body is answered with 400 and
        its errors, and nothing changes. A valid one is checked against the
        rules on the table as it was, stored with its flag and reason, and
        answered with 200 and the fraud message. */
    method SaveTransaction(transaction: Transaction, sysdate: int) returns (resp: Response)
      modifies transaction, service.repository
      ensures var t := old(transaction.Data());
        Violations(t) != [] ==>
          && resp == BadRequest(Violations(t))
          && transaction.Data() == t
          && service.repository.rows == old(service.repository.rows)
      ensures var t := old(transaction.Data());
        var checked := Flagged(t, Gather(t, old(service.repository.rows), sysdate));
        Violations(t) == [] ==>
          && resp == OkText(SavedText(Verdict(t, Gather(t, old(service.repository.rows), sysdate))))
          && transaction.Data() == checked
          && service.repository.rows == old(service.repository.rows) + [ToRow(checked, sysdate)]
    {
      var errors := Violations(transaction.Data());
      if errors != [] {
        return BadRequest(errors);
      }
      var fraudMsg := service.CheckFraudRules(transaction, sysdate);
      service.SaveTransaction(transaction, sysdate);
      return OkText(SavedText(fraudMsg));
    }

    /** `GET /api/transactions`: every stored row, in table order. */
    function GetAllTransactions(fmt: int -> string): (resp: Response)
      reads service, service.repository
      ensures resp.OkList?
      ensures |resp.items| == |service.repository.rows|
      ensures forall i :: 0 <= i < |resp.items| ==> resp.items[i] == MapRow(service.repository.rows[i], fmt)
    {
      OkList(service.GetAllTransactions(fmt))
    }

    /** `GET /api/transactions/fraud`: the flagged rows, newest first. */
    function GetFraudTransactions(fmt: int -> string): (resp: Response)
      reads service, service.repository
      ensures resp.OkList?
      ensures resp == OkList(FindFraudTransactions(service.repository.rows, fmt))
      ensures |resp.items| == |FlaggedRows(service.repository.rows)|
      ensures forall i :: 0 <= i < |resp.items| ==> resp.items[i].fraudFlag
      ensures forall i :: 0 <= i < |resp.items| ==>
        resp.items[i] == MapRow(SortNewestFirst(FlaggedRows(service.repository.rows))[i], fmt)
    {
      OkList(service.GetFraudTransactions(fmt))
    }
  }

  /** The row a valid `POST` stores is flagged exactly when some rule fired
      against the table before the insert, and then carries the alerts as
      its reason; otherwise its reason is "NONE". */
  lemma StoredRowFlag(t: TxnData, table: seq<Row>, sysdate: int)
    ensures var ev := Gather(t, table, sysdate);
      var row := ToRow(Flagged(t, ev), sysdate);
      && (row.fraudFlag == 1 <==> exists r :: Fires(r, t, ev))
      && (row.fraudFlag == 1 ==> row.fraudReason == Some(AlertText(FiredRules(t, ev))))
      && (row.fraudFlag == 0 ==> row.fraudReason == Some(NoFraudReason))
  {
    var ev := Gather(t, table, sysdate);
    FiredIff(t, ev);
    if exists r :: Fires(r, t, ev) {
      var r :| Fires(r, t, ev);
      assert r in FiredRules(t, ev);
    }
  }
}

=== FILE: form.dfy ===
/** The submit form (`TransactionForm.tsx`): nine text inputs, a submit
    handler that checks the required fields and the amount before it posts,
    and a clear button. The current time, number parsing, loading the client
    module and the server's reply are parameters. */
module Form {
  import opened Wrappers
  import opened ApiClient

  /** The form's inputs, all as typed text. */
  datatype FormData = FormData(
    transactionId: string,
    amount: string,
    currency: string,
    senderAccount: string,
    receiverAccount: string,
    transactionType: string,
    channel: string,
    ipAddress: string,
    location: string)

  const InitialFormData := FormData("", "", "INR", "", "", "TRANSFER", "MOBILE", "", "")

  /** The names of the inputs (`keyof FormData`). */
  datatype Field =
    | TransactionIdField
    | AmountField
    | CurrencyField
    | SenderAccountField
    | ReceiverAccountField
    | TransactionTypeField
    | ChannelField
    | IpAddressField
    | LocationField

  function Get(d: FormData, f: Field): string {
    match f
    case TransactionIdField => d.transactionId
    case AmountField => d.amount
    case CurrencyField => d.currency
    case SenderAccountField => d.senderAccount
    case ReceiverAccountField => d.receiverAccount
    case TransactionTypeField => d.transactionType
    case ChannelField => d.channel
    case IpAddressField => d.ipAddress
    case LocationField => d.location
  }

  /** `{ ...prev, [field]: value }`: the named input reads `value` and every
      other input reads as before. */
  function With(d: FormData, f: Field, value: string): (r: FormData)
    ensures forall g :: Get(r, g) == if g == f then value else Get(d, g)
  {
    match f
    case TransactionIdField => d.(transactionId := value)
    case AmountField => d.(amount := value)
    case CurrencyField => d.(currency := value)
    case SenderAccountField => d.(senderAccount := value)
    case ReceiverAccountField => d.(receiverAccount := value)
    case TransactionTypeField => d.(transactionType := value)
    case ChannelField => d.(channel := value)
    case IpAddressField => d.(ipAddress := value)
    case LocationField => d.(location := value)
  }

  /** The banner above the form: a kind ("", "success" or "error") and a text. */
  datatype Message = Message(kind: string, text: string)

  const NoMessage := Message("", "")
  const RequiredMessage := "Please fill in all required fields"
  const AmountMessage := "Amount must be a positive number"
  const SubmittedFallback := "Transaction submitted successfully!"
  const SubmitFailed := "Failed to submit transaction. Please try again."
  const Unexpected := "An unexpected error occurred. Please try again."

  predicate MissingRequired(d: FormData) {
    d.transactionId == "" || d.amount == "" || d.senderAccount == "" || d.receiverAccount == ""
  }

  /** A parsed amount (`None` is `NaN`) that is a positive number. */
  predicate PositiveAmount(amount: Option<real>) {
    amount.Some? && amount.value > 0.0
  }

  /** `s.replace(from, to)` with a one-character pattern: the first
      occurrence, and only that one, is replaced. */
  function ReplaceFirst(s: string, from: char, to: char): (r: string)
    ensures |r| == |s|
    ensures forall i :: 0 <= i < |s| ==> r[i] == if s[i] == from && from !in s[..i] then to else s[i]
  {
    if s == [] then []
    else if s[0] == from then [to] + s[1..]
    else
      var rest := ReplaceFirst(s[1..], from, to);
      assert forall i :: 1 <= i < |s| ==> s[..i] == [s[0]] + s[1..][..i - 1];
      [s[0]] + rest
  }

  /** `iso.slice(0, 19).replace('T', ' ')`. */
  function ShapeTimestamp(iso: string): (r: string)
    ensures |r| == if |iso| < 19 then |iso| else 19
    ensures forall i :: 0 <= i < |r| ==> r[i] == if iso[i] == 'T' && 'T' !in iso[..i] then ' ' else iso[i]
  {
    var head := iso[..if |iso| < 19 then |iso| else 19];
    assert forall i :: 0 <= i < |head| ==> head[..i] == iso[..i];
    ReplaceFirst(head, 'T', ' ')
  }

  predicate IsDigitChar(c: char) {
    '0' <= c <= '9'
  }

  /** The positions of a separator in both timestamp shapes. */
  predicate SeparatorAt(i: int) {
    i == 4 || i == 7 || i == 10 || i == 13 || i == 16
  }

  /** `yyyy-MM-ddTHH:mm:ss.sssZ`, what `Date.prototype.toISOString` writes
      for the years 0 to 9999. */
  predicate IsIsoString(iso: string) {
    && |iso| == 24
    && iso[4] == '-' && iso[7] == '-' && iso[10] == 'T' && iso[13] == ':' && iso[16] == ':'
    && iso[19] == '.' && iso[23] == 'Z'
    && (forall i :: 0 <= i < 19 && !SeparatorAt(i) ==> IsDigitChar(iso[i]))
    && (forall i :: 20 <= i < 23 ==> IsDigitChar(iso[i]))
  }

  /** `yyyy-MM-dd HH:mm:ss`. */
  predicate IsSqlTimestamp(s: string) {
    && |s| == 19
    && s[4] == '-' && s[7] == '-' && s[10] == ' ' && s[13] == ':' && s[16] == ':'
    && (forall i :: 0 <= i < 19 && !SeparatorAt(i) ==> IsDigitChar(s[i]))
  }

  /** An ISO time becomes `yyyy-MM-dd HH:mm:ss`: the date and the time to the
      second are kept character for character, the `T` between them becomes
      a space, and the fraction and the zone are dropped. */
  lemma TimestampShape(iso: string)
    requires IsIsoString(iso)
    ensures IsSqlTimestamp(ShapeTimestamp(iso))
    ensures forall i :: 0 <= i < 19 && i != 10 ==> ShapeTimestamp(iso)[i] == iso[i]
  {
    var head := iso[..19];
    assert 'T' !in head[..10] by {
      forall i | 0 <= i < 10 ensures head[..10][i] != 'T' {
        assert head[i] == iso[i];
        if !SeparatorAt(i) {
          assert IsDigitChar(iso[i]);
        }
      }
    }
    forall i | 0 <= i < 19 && i != 10
      ensures ShapeTimestamp(iso)[i] == iso[i]
    {
      if i > 10 {
        assert head[..i][10] == 'T';
      }
    }
  }

  /** The body the form posts: the inputs as typed, the parsed amount, the
      shaped timestamp, and an empty IP address or location left out. */
  function Payload(d: FormData, amount: real, timestamp: string): (p: NewTransaction)
    ensures p.transactionId == d.transactionId && p.timestamp == timestamp && p.amount == amount
    ensures p.currency == d.currency && p.transactionType == d.transactionType && p.channel == d.channel
    ensures p.senderAccount == d.senderAccount && p.receiverAccount == d.receiverAccount
    ensures p.ipAddress.None? <==> d.ipAddress == ""
    ensures p.ipAddress.Some? ==> p.ipAddress.value == d.ipAddress
    ensures p.location.None? <==> d.location == ""
    ensures p.location.Some? ==> p.location.value == d.location
  {
    NewTransaction(
      d.transactionId, timestamp, amount, d.currency, d.senderAccount, d.receiverAccount,
      d.transactionType, d.channel,
      if d.ipAddress == "" then None else Some(d.ipAddress),
      if d.location == "" then None else Some(d.location))
  }

  /** The form's state variables; `callbacks` counts the runs of the
      `onTransactionSubmitted` callback. */
  datatype FormState = FormState(formData: FormData, loading: bool, message: Message, callbacks: nat)

  /** A submit's outcome: the new state, and the body posted, if any. */
  datatype Submission = Submission(state: FormState, posted: Option<NewTransaction>)

  /** The text a result's `error || fallback` shows. */
  function ErrorText(result: ApiResponse<string>): string {
    if result.error.Some? && result.error.value != "" then result.error.value else SubmitFailed
  }

  /** `handleSubmit`, run to completion. The required fields are checked
      before the amount, and either failure posts nothing and changes only
      the message; so does a client module that fails to load, which shows
      the unexpected-error message. A post that succeeds shows the server's text, resets the
      inputs and runs the callback once; one that fails keeps the inputs.
      Loading is off at the end of every path. */
  function Submitted(s: FormState, hasCallback: bool, iso: string, parseAmount: string -> Option<real>,
                     imported: bool, reply: Reply<CreateBody>, num: real -> string, callbackThrows: bool): (r: Submission)
    ensures !r.state.loading
    ensures MissingRequired(s.formData) ==>
      r == Submission(s.(loading := false, message := Message("error", RequiredMessage)), None)
    ensures !MissingRequired(s.formData) && !PositiveAmount(parseAmount(s.formData.amount)) ==>
      r == Submission(s.(loading := false, message := Message("error", AmountMessage)), None)
    ensures !MissingRequired(s.formData) && PositiveAmount(parseAmount(s.formData.amount)) && !imported ==>
      r == Submission(s.(loading := false, message := Message("error", Unexpected)), None)
    ensures r.posted.Some? <==>
      !MissingRequired(s.formData) && PositiveAmount(parseAmount(s.formData.amount)) && imported
    ensures r.posted.Some? ==>
      r.posted.value == Payload(s.formData, parseAmount(s.formData.amount).value, ShapeTimestamp(iso))
    ensures var result := CreateResult(reply, num);
      r.posted.Some? && result.success ==>
        && r.state.formData == InitialFormData
        && r.state.callbacks == s.callbacks + (if hasCallback then 1 else 0)
        && r.state.message == (if hasCallback && callbackThrows then Message("error", Unexpected)
                               else Message("success", result.data.value))
    ensures var result := CreateResult(reply, num);
      r.posted.Some? && !result.success ==>
        r.state == s.(loading := false, message := Message("error", ErrorText(result)))
    ensures r.posted.None? && imported ==> r.state.formData == s.formData && r.state.callbacks == s.callbacks
  {
    if MissingRequired(s.formData) then
      Submission(s.(loading := false, message := Message("error", RequiredMessage)), None)
    else
      var amount := parseAmount(s.formData.amount);
      if !PositiveAmount(amount) then
        Submission(s.(loading := false, message := Message("error", AmountMessage)), None)
      else if !imported then
        Submission(s.(loading := false, message := Message("error", Unexpected)), None)
      else
        var posted := Payload(s.formData, amount.value, ShapeTimestamp(iso));
        var result := CreateResult(reply, num);
        if result.success then
          var text := if result.data.Some? && result.data.value != "" then result.data.value else SubmittedFallback;
          var reset := s.(formData := InitialFormData, message := Message("success", text));
          var called := if hasCallback then reset.(callbacks := s.callbacks + 1) else reset;
          var final := if hasCallback && callbackThrows then called.(message := Message("error", Unexpected)) else called;
          Submission(final.(loading := false), Some(posted))
        else
          Submission(s.(loading := false, message := Message("error", ErrorText(result))), Some(posted))
  }

  class TransactionForm {
    /** Whether the page passed an `onTransactionSubmitted` callback. */
    const hasCallback: bool
    var formData: FormData
    var loading: bool
    var message: Message
    var callbacks: nat

    function State(): FormState
      reads this
    {
      FormState(formData, loading, message, callbacks)
    }

    constructor (hasCallback: bool)
      ensures this.hasCallback == hasCallback
      ensures State() == FormState(InitialFormData, false, NoMessage, 0)
    {
      this.hasCallback := hasCallback;
      formData := InitialFormData;
      loading := false;
      message := NoMessage;
      callbacks := 0;
    }

    /** `handleChange`: one input changes, and a shown message is cleared. */
    method HandleChange(field: Field, value: string)
      modifies this
      ensures State() == old(State()).(
        formData := With(old(formData), field, value),
        message := if old(message).text != "" then NoMessage else old(message))
    {
      formData := With(formData, field, value);
      if message.text != "" {
        message := NoMessage;
      }
    }

    /** `handleSubmit`: validates, posts through the client, and reports. */
    method HandleSubmit(iso: string, parseAmount: string -> Option<real>, imported: bool,
                        reply: Reply<CreateBody>, num: real -> string, callbackThrows: bool)
        returns (posted: Option<NewTransaction>)
      modifies this
      ensures Submission(State(), posted)
           == Submitted(old(State()), hasCallback, iso, parseAmount, imported, reply, num, callbackThrows)
    {
      loading := true;
      message := NoMessage;
      posted := None;
      if formData.transactionId == "" || formData.amount == "" || formData.senderAccount == "" || formData.receiverAccount == "" {
        message := Message("error", RequiredMessage);
        loading := false;
        return;
      }
      var amount := parseAmount(formData.amount);
      if amount.None? || amount.value <= 0.0 {
        message := Message("error", AmountMessage);
        loading := false;
        return;
      }
      var timestamp := ShapeTimestamp(iso);
      var transactionData := Payload(formData, amount.value, timestamp);
      if !imported {
        message := Message("error", Unexpected);
      } else {
        posted := Some(transactionData);
        var result := CreateTransaction(reply, num);
        if result.success {
          message := Message("success", if result.data.Some? && result.data.value != "" then result.data.value else SubmittedFallback);
          formData := InitialFormData;
          if hasCallback {
            callbacks := callbacks + 1;
            if callbackThrows {
              message := Message("error", Unexpected);
            }
          }
        } else {
          message := Message("error", if result.error.Some? && result.error.value != "" then result.error.value else SubmitFailed);
        }
      }
      loading := false;
    }

    /** `handleClear`: the initial inputs and no message. */
    method HandleClear()
      modifies this
      ensures State() == old(State()).(formData := InitialFormData, message := NoMessage)
    {
      formData := InitialFormData;
      message := NoMessage;
    }
  }
}

=== FILE: history.dfy ===
/** The transaction history page (`TransactionHistory.tsx`): a tab picks the
    list request, a duration picks a time window, the list shown is the
    request's data inside that window, and the counters are computed from a
    separate request for all transactions. Dates are milliseconds; the
    calendar month arithmetic of the date library and the parsing of
    timestamps are parameters. */
module History {
  import opened Wrappers
  import opened Seqs
  import opened ApiClient

  /** A window whose bounds may be unset (`undefined`). */
  datatype DateRange = DateRange(from: Option<int>, to: Option<int>)

  const Presets: seq<string> := ["1month", "3months", "6months"]

  /** How many months back a preset reaches. */
  function PresetMonths(option: string): nat
    requires option in Presets
  {
    if option == "1month" then 1 else if option == "3months" then 3 else 6
  }

  /** `getDateRange`: a preset ends now and starts that many calendar months
      earlier (`subMonths`), the custom option is the user's own bounds, and
      any other option reads as one month. */
  function GetDateRange(option: string, custom: DateRange, now: int, subMonths: (int, nat) -> int): (r: DateRange)
    ensures option == "custom" ==> r == custom
    ensures option in Presets ==> r == DateRange(Some(subMonths(now, PresetMonths(option))), Some(now))
    ensures option != "custom" && option !in Presets ==> r == DateRange(Some(subMonths(now, 1)), Some(now))
  {
    match option
    case "1month" => DateRange(Some(subMonths(now, 1)), Some(now))
    case "3months" => DateRange(Some(subMonths(now, 3)), Some(now))
    case "6months" => DateRange(Some(subMonths(now, 6)), Some(now))
    case "custom" => DateRange(custom.from, custom.to)
    case _ => DateRange(Some(subMonths(now, 1)), Some(now))
  }

  /** When going back a month or more moves a date into the past, every
      option except the custom one gives a non-empty window ending now. */
  lemma PresetWindowOrdered(option: string, custom: DateRange, now: int, subMonths: (int, nat) -> int)
    requires option != "custom"
    requires forall d: int, k: nat :: k > 0 ==> subMonths(d, k) < d
    ensures var r := GetDateRange(option, custom, now, subMonths);
      r.from.Some? && r.to == Some(now) && r.from.value < r.to.value
  {
    if option !in Presets {
      assert "1month" in Presets;
    }
  }

  /** The time `new Date(t.timestamp)` denotes; `None` is an invalid date,
      which is neither after nor before any date. */
  function TimeOf(t: ClientTxn, parse: string -> Option<int>): Option<int> {
    if t.timestamp.Some? then parse(t.timestamp.value) else None
  }

  /** Strictly after `from` and strictly before `to`. */
  predicate Within(t: ClientTxn, from: int, to: int, parse: string -> Option<int>) {
    var d := TimeOf(t, parse);
    d.Some? && from < d.value < to
  }

  /** `filterByDuration`: with a bound unset the list is kept whole;
      otherwise exactly the transactions strictly inside the window are kept,
      in their order. */
  function FilterByDuration(txns: seq<ClientTxn>, range: DateRange, parse: string -> Option<int>): (r: seq<ClientTxn>)
    ensures range.from.None? || range.to.None? ==> r == txns
    ensures range.from.Some? && range.to.Some? ==>
      forall t :: t in r <==> t in txns && Within(t, range.from.value, range.to.value, parse)
    ensures range.from.Some? && range.to.Some? ==>
      forall t :: multiset(r)[t] == if Within(t, range.from.value, range.to.value, parse) then multiset(txns)[t] else 0
    ensures SubsequenceOf(r, txns)
  {
    if range.from.None? || range.to.None? then
      SubsequenceOfSelf(txns);
      txns
    else
      var keep := (t: ClientTxn) => Within(t, range.from.value, range.to.value, parse);
      FilterIsSubsequence(keep, txns);
      forall t
        ensures t in Filter(keep, txns) <==> t in txns && keep(t)
        ensures multiset(Filter(keep, txns))[t] == if keep(t) then multiset(txns)[t] else 0
      {
        FilterMember(keep, txns, t);
        FilterMultiplicity(keep, txns, t);
      }
      Filter(keep, txns)
  }

  /** The tab identifiers, in display order. */
  const Tabs: seq<string> := ["all", "success", "failed", "pending", "fraud"]

  /** The tab that shows an endpoint's list. */
  function TabFor(ep: Endpoint): (tab: string)
    ensures tab in Tabs
  {
    match ep
    case AllTransactions => "all"
    case SuccessTransactions => "success"
    case FailedTransactions => "failed"
    case PendingTransactions => "pending"
    case FraudTransactions => "fraud"
  }

  /** The request a tab makes: its own list for the four named tabs, the
      whole list for any other tab. Each named tab is recovered from its
      endpoint. */
  function EndpointFor(tab: string): (ep: Endpoint)
    ensures ep == AllTransactions <==> tab !in ["success", "failed", "pending", "fraud"]
    ensures ep != AllTransactions ==> TabFor(ep) == tab
  {
    match tab
    case "success" => SuccessTransactions
    case "failed" => FailedTransactions
    case "pending" => PendingTransactions
    case "fraud" => FraudTransactions
    case _ => AllTransactions
  }

  /** Every tab selects the endpoint whose tab it is. */
  lemma {:induction false} TabsRoundTrip(ep: Endpoint)
    ensures EndpointFor(TabFor(ep)) == ep
  {
    match ep
    case AllTransactions =>
      assert "all" != "success" && "all" != "failed" && "all" != "pending" && "all" != "fraud";
    case _ =>
  }

  predicate HasStatus(t: ClientTxn, status: string) {
    t.status == Some(status)
  }

  /** `fraudFlag === true || fraudFlag === 1`. */
  predicate CountsAsFraud(t: ClientTxn) {
    t.fraudFlag == Some(FlagBool(true)) || t.fraudFlag == Some(FlagNum(1.0))
  }

  datatype Stats = Stats(total: nat, success: nat, failed: nat, pending: nat, fraud: nat)

  /** The counters: all transactions, those with each final status, and the
      flagged ones. A transaction has one status, so the three status counts
      never exceed the total. */
  function ComputeStats(all: seq<ClientTxn>): (s: Stats)
    ensures s.total == |all|
    ensures s.success + s.failed + s.pending <= s.total
    ensures s.fraud <= s.total
  {
    var success := (t: ClientTxn) => HasStatus(t, "SUCCESS");
    var failed := (t: ClientTxn) => HasStatus(t, "FAILED");
    var pending := (t: ClientTxn) => HasStatus(t, "PENDING");
    DisjointFiltersBound(success, failed, pending, all);
    Stats(|all|, |Filter(success, all)|, |Filter(failed, all)|, |Filter(pending, all)|, |Filter(CountsAsFraud, all)|)
  }

  /** The counters add up over a split of the list. */
  lemma StatsOfAppend(a: seq<ClientTxn>, b: seq<ClientTxn>)
    ensures var sa, sb, s := ComputeStats(a), ComputeStats(b), ComputeStats(a + b);
      && s.success == sa.success + sb.success
      && s.failed == sa.failed + sb.failed
      && s.pending == sa.pending + sb.pending
      && s.fraud == sa.fraud + sb.fraud
  {
    FilterAppend((t: ClientTxn) => HasStatus(t, "SUCCESS"), a, b);
    FilterAppend((t: ClientTxn) => HasStatus(t, "FAILED"), a, b);
    FilterAppend((t: ClientTxn) => HasStatus(t, "PENDING"), a, b);
    FilterAppend(CountsAsFraud, a, b);
  }

  /** One transaction counts once in the total, once under its own status
      when that is `SUCCESS`, `FAILED` or `PENDING` exactly, and once as fraud
      when its flag is `true` or `1`. With `StatsOfAppend` and the empty list
      counting zero everywhere, this fixes every counter on every list. */
  lemma StatsOfOne(t: ClientTxn)
    ensures ComputeStats([t]) == Stats(1,
      if t.status == Some("SUCCESS") then 1 else 0,
      if t.status == Some("FAILED") then 1 else 0,
      if t.status == Some("PENDING") then 1 else 0,
      if t.fraudFlag == Some(FlagBool(true)) || t.fraudFlag == Some(FlagNum(1.0)) then 1 else 0)
  {
    assert [t][1..] == [];
  }

  const FetchFailed := "Failed to fetch transactions"
  const Unexpected := "An unexpected error occurred. Please try again."

  /** The page's state variables. */
  datatype ViewState = ViewState(
    activeTab: string,
    transactions: seq<ClientTxn>,
    loading: bool,
    error: Option<string>,
    refreshKey: int,
    selectedDuration: string,
    customDateRange: DateRange,
    allTransactions: seq<ClientTxn>)

  /** The state after `fetchTransactions(tab)` completes. `imported` says
      whether loading the client module succeeded; `reply` is the answer to
      the tab's request. On success the list is the data inside the window
      and there is no error; otherwise the list is empty and the error is
      the result's own message or the fallback. Only the list, the error and
      the loading flag change, and loading is off. */
  function AfterFetch(s: ViewState, tab: string, imported: bool, reply: Reply<Parse<ListJson<ClientTxn>>>,
                      now: int, subMonths: (int, nat) -> int, parse: string -> Option<int>): (s': ViewState)
    ensures !s'.loading
    ensures s'.error == None <==> imported && FetchList(EndpointFor(tab), reply).success
    ensures s'.error == None ==>
      var range := GetDateRange(s.selectedDuration, s.customDateRange, now, subMonths);
      s'.transactions == FilterByDuration(FetchList(EndpointFor(tab), reply).data.value, range, parse)
    ensures s'.error.Some? ==> s'.transactions == [] && s'.error.value != ""
    ensures !imported ==> s'.error == Some(Unexpected)
    ensures imported && !FetchList(EndpointFor(tab), reply).success ==>
      var e := FetchList(EndpointFor(tab), reply).error;
      s'.error == Some(if e.Some? && e.value != "" then e.value else FetchFailed)
    ensures s'.(transactions := s.transactions, error := s.error, loading := s.loading) == s
  {
    if !imported then
      s.(transactions := [], error := Some(Unexpected), loading := false)
    else
      var result := FetchList(EndpointFor(tab), reply);
      if result.success then
        var range := GetDateRange(s.selectedDuration, s.customDateRange, now, subMonths);
        s.(transactions := FilterByDuration(result.data.value, range, parse), error := None, loading := false)
      else
        var msg := if result.error.Some? && result.error.value != "" then result.error.value else FetchFailed;
        s.(transactions := [], error := Some(msg), loading := false)
  }

  /** Every transaction a successful fetch shows came from the result and,
      once both bounds are set, lies strictly inside the window. */
  lemma ShownWithinWindow(s: ViewState, tab: string, imported: bool, reply: Reply<Parse<ListJson<ClientTxn>>>,
                          now: int, subMonths: (int, nat) -> int, parse: string -> Option<int>, t: ClientTxn)
    requires t in AfterFetch(s, tab, imported, reply, now, subMonths, parse).transactions
    ensures FetchList(EndpointFor(tab), reply).success
    ensures t in FetchList(EndpointFor(tab), reply).data.value
    ensures var range := GetDateRange(s.selectedDuration, s.customDateRange, now, subMonths);
      range.from.Some? && range.to.Some? ==> Within(t, range.from.value, range.to.value, parse)
  {
  }

  class HistoryView {
    var activeTab: string
    var transactions: seq<ClientTxn>
    var loading: bool
    var error: Option<string>
    var refreshKey: int
    var selectedDuration: string
    var customDateRange: DateRange
    var allTransactions: seq<ClientTxn>

    function State(): ViewState
      reads this
    {
      ViewState(activeTab, transactions, loading, error, refreshKey, selectedDuration, customDateRange, allTransactions)
    }

    /** The initial state: the "all" tab, one month, nothing loaded. */
    constructor ()
      ensures State() == ViewState("all", [], false, None, 0, "1month", DateRange(None, None), [])
    {
      activeTab := "all";
      transactions := [];
      loading := false;
      error := None;
      refreshKey := 0;
      selectedDuration := "1month";
      customDateRange := DateRange(None, None);
      allTransactions := [];
    }

    method SelectTab(tab: string)
      modifies this
      ensures State() == old(State()).(activeTab := tab)
    {
      activeTab := tab;
    }

    method SelectDuration(option: string)
      modifies this
      ensures State() == old(State()).(selectedDuration := option)
    {
      selectedDuration := option;
    }

    /** Picking a start date keeps the end date. */
    method SetCustomFrom(date: Option<int>)
      modifies this
      ensures State() == old(State()).(customDateRange := old(customDateRange).(from := date))
    {
      customDateRange := customDateRange.(from := date);
    }

    /** Picking an end date keeps the start date. */
    method SetCustomTo(date: Option<int>)
      modifies this
      ensures State() == old(State()).(customDateRange := old(customDateRange).(to := date))
    {
      customDateRange := customDateRange.(to := date);
    }

    /** `handleRefresh`: the refresh key goes up by exactly one. */
    method HandleRefresh()
      modifies this
      ensures State() == old(State()).(refreshKey := old(refreshKey) + 1)
    {
      refreshKey := refreshKey + 1;
    }

    /** `fetchTransactions(tab)`, run to completion as one step. */
    method FetchTransactions(tab: string, imported: bool, reply: Reply<Parse<ListJson<ClientTxn>>>,
                             now: int, subMonths: (int, nat) -> int, parse: string -> Option<int>)
      modifies this
      ensures State() == AfterFetch(old(State()), tab, imported, reply, now, subMonths, parse)
    {
      loading := true;
      error := None;
      if !imported {
        error := Some(Unexpected);
        transactions := [];
      } else {
        var result := FetchList(EndpointFor(tab), reply);
        if result.success && result.data.Some? {
          var filtered := result.data.value;
          filtered := FilterByDuration(filtered, GetDateRange(selectedDuration, customDateRange, now, subMonths), parse);
          transactions := filtered;
        } else {
          error := Some(if result.error.Some? && result.error.value != "" then result.error.value else FetchFailed);
          transactions := [];
        }
      }
      loading := false;
    }

    /** The counters' own request: its data replaces the list behind the
        counters on success; any failure leaves that list as it was. */
    method FetchAllForStats(imported: bool, reply: Reply<Parse<ListJson<ClientTxn>>>)
      modifies this
      ensures var result := FetchList(AllTransactions, reply);
        State() == old(State()).(allTransactions := if imported && result.success then result.data.value else old(allTransactions))
    {
      if imported {
        var result := FetchList(AllTransactions, reply);
        if result.success && result.data.Some? {
          allTransactions := result.data.value;
        }
      }
    }
  }
}

=== FILE: repository.dfy ===
/** The TRANSACTIONS table and the queries the server runs against it. The
    table is a sequence of rows; the database clock (`SYSDATE`) is an integer
    count of seconds passed in by the caller. */
module Repository {
  import opened Wrappers
  import opened Seqs
  import opened TransactionModel

  /** One stored row. `mlPrediction` has no column. */
  datatype Row = Row(
    transactionId: JString,
    timestampVal: int,
    currency: JString,
    amount: real,
    senderAccount: JString,
    receiverAccount: JString,
    transactionType: JString,
    channel: JString,
    status: JString,
    ipAddress: JString,
    location: JString,
    fraudFlag: int,
    fraudReason: JString)

  /** `5 / (24 * 60)` of a day, in seconds. */
  const VelocityWindow := 300
  /** `10 / (24 * 60)` of a day, in seconds. */
  const FailedWindow := 600

  /** A string as an Oracle character column holds it, and as a bound
      parameter compares: the empty string is NULL. */
  function OracleText(s: JString): (v: JString)
    ensures v.None? <==> s.None? || s == Some("")
    ensures v.Some? ==> v == s
  {
    if s == Some("") then None else s
  }

  /** The row `insertTransaction` writes: the clock replaces the supplied
      timestamp, the flag becomes 1 or 0, and an empty string is stored as
      NULL. */
  function ToRow(t: TxnData, sysdate: int): (r: Row)
    ensures r.timestampVal == sysdate
    ensures r.fraudFlag == 1 <==> t.fraudFlag
    ensures r.fraudFlag == 0 <==> !t.fraudFlag
    ensures r.senderAccount.None? <==> t.senderAccount.None? || t.senderAccount == Some("")
    ensures r.status.None? <==> t.status.None? || t.status == Some("")
    ensures r.fraudReason.None? <==> t.fraudReason.None? || t.fraudReason == Some("")
  {
    Row(OracleText(t.transactionId), sysdate, OracleText(t.currency), t.amount,
        OracleText(t.senderAccount), OracleText(t.receiverAccount),
        OracleText(t.transactionType), OracleText(t.channel), OracleText(t.status),
        OracleText(t.ipAddress), OracleText(t.location),
        if t.fraudFlag then 1 else 0, OracleText(t.fraudReason))
  }

  /** The row mapper: a new `Transaction` filled from the columns. `fmt` is the
      driver's conversion of a DATE column to a string; `getBoolean` is true
      for any non-zero number. */
  function MapRow(r: Row, fmt: int -> string): (t: TxnData)
    ensures t.mlPrediction == None
    ensures t.fraudFlag <==> r.fraudFlag != 0
    ensures t.timestamp == Some(fmt(r.timestampVal))
  {
    Unset.(transactionId := r.transactionId, timestamp := Some(fmt(r.timestampVal)),
           currency := r.currency, amount := r.amount, senderAccount := r.senderAccount,
           receiverAccount := r.receiverAccount, transactionType := r.transactionType,
           channel := r.channel, status := r.status, ipAddress := r.ipAddress,
           location := r.location, fraudFlag := r.fraudFlag != 0, fraudReason := r.fraudReason)
  }

  function MapRows(rows: seq<Row>, fmt: int -> string): (ts: seq<TxnData>)
    ensures |ts| == |rows|
    ensures forall i :: 0 <= i < |rows| ==> ts[i] == MapRow(rows[i], fmt)
  {
    seq(|rows|, i requires 0 <= i < |rows| => MapRow(rows[i], fmt))
  }

  /** Reading back an inserted row gives every stored field back, except
      that the timestamp is now the database clock, `mlPrediction` is null,
      and an empty string has become null. A transaction without empty
      strings comes back unchanged in every other field. */
  lemma {:induction false} InsertThenRead(t: TxnData, sysdate: int, fmt: int -> string)
    ensures MapRow(ToRow(t, sysdate), fmt)
         == t.(transactionId := OracleText(t.transactionId), timestamp := Some(fmt(sysdate)),
               currency := OracleText(t.currency), senderAccount := OracleText(t.senderAccount),
               receiverAccount := OracleText(t.receiverAccount), transactionType := OracleText(t.transactionType),
               channel := OracleText(t.channel), status := OracleText(t.status),
               ipAddress := OracleText(t.ipAddress), location := OracleText(t.location),
               fraudReason := OracleText(t.fraudReason), mlPrediction := None)
    ensures NoEmptyText(t) ==>
      MapRow(ToRow(t, sysdate), fmt) == t.(timestamp := Some(fmt(sysdate)), mlPrediction := None)
  {
  }

  /** No string field holds the empty string. */
  predicate NoEmptyText(t: TxnData) {
    && t.transactionId != Some("") && t.currency != Some("") && t.senderAccount != Some("")
    && t.receiverAccount != Some("") && t.transactionType != Some("") && t.channel != Some("")
    && t.status != Some("") && t.ipAddress != Some("") && t.location != Some("")
    && t.fraudReason != Some("")
  }

  /** SQL `col = ?`: a NULL on either side never matches, and in Oracle an
      empty string is NULL. */
  predicate SqlEquals(col: JString, param: JString) {
    OracleText(col).Some? && OracleText(param).Some? && col.value == param.value
  }

  /** `SENDER_ACCOUNT = ? AND TIMESTAMP_VAL >= SYSDATE - window`. */
  predicate InWindow(r: Row, sender: JString, sysdate: int, window: int) {
    SqlEquals(r.senderAccount, sender) && r.timestampVal >= sysdate - window
  }

  /** The sender's rows of the last five minutes. */
  function RecentRows(table: seq<Row>, sender: JString, sysdate: int): seq<Row> {
    Filter((r: Row) => InWindow(r, sender, sysdate, VelocityWindow), table)
  }

  /** The sender's FAILED rows of the last ten minutes. */
  function RecentFailedRows(table: seq<Row>, sender: JString, sysdate: int): seq<Row> {
    Filter((r: Row) => InWindow(r, sender, sysdate, FailedWindow) && SqlEquals(r.status, Some("FAILED")), table)
  }

  function SumAmounts(rows: seq<Row>): real {
    if rows == [] then 0.0 else rows[0].amount + SumAmounts(rows[1..])
  }

  /** `findAll`: every row, mapped back. */
  function FindAll(table: seq<Row>, fmt: int -> string): (ts: seq<TxnData>)
    ensures |ts| == |table|
    ensures forall i :: 0 <= i < |table| ==> ts[i] == MapRow(table[i], fmt)
  {
    MapRows(table, fmt)
  }

  /** The rows whose STATUS equals the parameter (`WHERE STATUS = ?`), each
      as often as the table holds it. */
  function RowsWithStatus(table: seq<Row>, status: JString): (rows: seq<Row>)
    ensures forall r :: multiset(rows)[r] == if SqlEquals(r.status, status) then multiset(table)[r] else 0
    ensures status.None? || status == Some("") ==> rows == []
  {
    var matches := (r: Row) => SqlEquals(r.status, status);
    assert forall r :: multiset(Filter(matches, table))[r] == if matches(r) then multiset(table)[r] else 0 by {
      forall r {
        FilterMultiplicity(matches, table, r);
      }
    }
    assert status.None? || status == Some("") ==> Filter(matches, table) == [] by {
      if status.None? || status == Some("") { FilterNone(matches, table); }
    }
    Filter(matches, table)
  }

  /** `findByStatus`: the rows whose STATUS equals the parameter, mapped back. */
  function FindByStatus(table: seq<Row>, status: JString, fmt: int -> string): (ts: seq<TxnData>)
    ensures |ts| == |RowsWithStatus(table, status)|
    ensures forall i :: 0 <= i < |ts| ==> ts[i] == MapRow(RowsWithStatus(table, status)[i], fmt)
    ensures forall i :: 0 <= i < |ts| ==> ts[i].status.Some? && ts[i].status == status
    ensures status.None? || status == Some("") ==> ts == []
  {
    var rows := RowsWithStatus(table, status);
    assert forall i :: 0 <= i < |rows| ==> SqlEquals(rows[i].status, status) by {
      forall i | 0 <= i < |rows| ensures SqlEquals(rows[i].status, status) {
        assert multiset(rows)[rows[i]] > 0;
      }
    }
    MapRows(rows, fmt)
  }

  /** A row is listed by `findByStatus(s)` exactly when its status is `s`, and
      then as many times as the table holds it; the empty string, being
      NULL, lists nothing. */
  lemma {:induction false} FindByStatusExact(table: seq<Row>, s: string, r: Row)
    ensures r in RowsWithStatus(table, Some(s)) <==> s != "" && r in table && r.status == Some(s)
    ensures multiset(RowsWithStatus(table, Some(s)))[r] == if s != "" && r.status == Some(s) then multiset(table)[r] else 0
  {
    assert r in RowsWithStatus(table, Some(s)) <==> r in multiset(RowsWithStatus(table, Some(s)));
  }

  // ---------- ORDER BY TIMESTAMP_VAL DESC ----------

  ghost predicate NewestFirst(rows: seq<Row>) {
    forall i, j :: 0 <= i < j < |rows| ==> rows[i].timestampVal >= rows[j].timestampVal
  }

  function InsertByTime(r: Row, rows: seq<Row>): (res: seq<Row>)
    ensures multiset(res) == multiset(rows) + multiset{r}
    ensures |res| == |rows| + 1
    ensures res[0] == r || (rows != [] && res[0] == rows[0])
    ensures NewestFirst(rows) ==> NewestFirst(res)
  {
    if rows == [] then [r]
    else if r.timestampVal >= rows[0].timestampVal then [r] + rows
    else
      var rest := InsertByTime(r, rows[1..]);
      assert rows == [rows[0]] + rows[1..];
      [rows[0]] + rest
  }

  /** Orders rows newest first (ties in an arbitrary but fixed order). */
  function SortNewestFirst(rows: seq<Row>): (res: seq<Row>)
    ensures multiset(res) == multiset(rows)
    ensures |res| == |rows|
    ensures forall i :: 0 <= i < |res| ==> res[i] in multiset(rows)
    ensures NewestFirst(res)
  {
    if rows == [] then []
    else
      assert rows == [rows[0]] + rows[1..];
      InsertByTime(rows[0], SortNewestFirst(rows[1..]))
  }

  /** The rows stored with FRAUD_FLAG = 1. */
  function FlaggedRows(table: seq<Row>): (flagged: seq<Row>)
    ensures forall r :: r in flagged <==> r in table && r.fraudFlag == 1
    ensures forall r :: multiset(flagged)[r] == if r.fraudFlag == 1 then multiset(table)[r] else 0
  {
    var isFlagged := (r: Row) => r.fraudFlag == 1;
    assert forall r :: r in Filter(isFlagged, table) <==> r in table && isFlagged(r) by {
      forall r {
        FilterMember(isFlagged, table, r);
      }
    }
    assert forall r :: multiset(Filter(isFlagged, table))[r] == if isFlagged(r) then multiset(table)[r] else 0 by {
      forall r {
        FilterMultiplicity(isFlagged, table, r);
      }
    }
    Filter(isFlagged, table)
  }

  /** `findFraudTransactions`: the flagged rows, newest first, mapped back. */
  function FindFraudTransactions(table: seq<Row>, fmt: int -> string): (ts: seq<TxnData>)
    ensures |ts| == |FlaggedRows(table)|
    ensures forall i :: 0 <= i < |ts| ==> ts[i] == MapRow(SortNewestFirst(FlaggedRows(table))[i], fmt)
    ensures forall i :: 0 <= i < |ts| ==> ts[i].fraudFlag
  {
    var flagged := FlaggedRows(table);
    var sorted := SortNewestFirst(flagged);
    assert forall i :: 0 <= i < |sorted| ==> sorted[i].fraudFlag == 1 by {
      forall i | 0 <= i < |sorted| ensures sorted[i].fraudFlag == 1 {
        assert sorted[i] in flagged;
      }
    }
    MapRows(sorted, fmt)
  }

  /** The fraud list holds exactly the flagged rows (as a multiset) and is newest first. */
  lemma {:induction false} FraudListExact(table: seq<Row>, r: Row)
    ensures multiset(SortNewestFirst(FlaggedRows(table))) == multiset(FlaggedRows(table))
    ensures NewestFirst(SortNewestFirst(FlaggedRows(table)))
    ensures r in SortNewestFirst(FlaggedRows(table)) <==> r in table && r.fraudFlag == 1
    ensures multiset(SortNewestFirst(FlaggedRows(table)))[r] == if r.fraudFlag == 1 then multiset(table)[r] else 0
  {
    var sorted := SortNewestFirst(FlaggedRows(table));
    assert r in sorted <==> r in multiset(sorted);
    assert r in FlaggedRows(table) <==> r in multiset(FlaggedRows(table));
  }

  // ---------- aggregates used by the fraud rules ----------

  /** `countRecentTransactions`. */
  function CountRecentTransactions(table: seq<Row>, sender: JString, sysdate: int): (n: nat)
    ensures n <= |table|
    ensures sender.None? ==> n == 0
  {
    assert sender.None? ==> RecentRows(table, sender, sysdate) == [] by {
      if sender.None? { FilterNone((r: Row) => InWindow(r, sender, sysdate, VelocityWindow), table); }
    }
    |RecentRows(table, sender, sysdate)|
  }

  /** `avgAmountLast5Min`: the mean amount over the sender's five-minute window,
      SQL NULL when the window is empty. */
  function AvgAmountLast5Min(table: seq<Row>, sender: JString, sysdate: int): (avg: Option<real>)
    ensures avg.None? <==> CountRecentTransactions(table, sender, sysdate) == 0
    ensures avg.Some? ==> avg.value * (CountRecentTransactions(table, sender, sysdate) as real)
                          == SumAmounts(RecentRows(table, sender, sysdate))
  {
    var w := RecentRows(table, sender, sysdate);
    if |w| == 0 then None else Some(SumAmounts(w) / (|w| as real))
  }

  /** `countRecentFailedTxns`. */
  function CountRecentFailedTxns(table: seq<Row>, sender: JString, sysdate: int): (n: nat)
    ensures n <= |table|
    ensures n <= |Filter((r: Row) => InWindow(r, sender, sysdate, FailedWindow), table)|
  {
    FilterCountImplied(
      (r: Row) => InWindow(r, sender, sysdate, FailedWindow) && SqlEquals(r.status, Some("FAILED")),
      (r: Row) => InWindow(r, sender, sysdate, FailedWindow), table);
    |RecentFailedRows(table, sender, sysdate)|
  }

  /** A stronger filter keeps no more elements than a weaker one. */
  lemma {:induction false} FilterCountImplied<T>(f: T -> bool, g: T -> bool, s: seq<T>)
    requires forall x :: f(x) ==> g(x)
    ensures |Filter(f, s)| <= |Filter(g, s)|
  {
    if s != [] {
      FilterCountImplied(f, g, s[1..]);
    }
  }

  /** Bounds on every amount bound the sum. */
  lemma {:induction false} SumBounds(rows: seq<Row>, lo: real, hi: real)
    requires forall i :: 0 <= i < |rows| ==> lo <= rows[i].amount <= hi
    ensures (|rows| as real) * lo <= SumAmounts(rows) <= (|rows| as real) * hi
  {
    if rows != [] {
      SumBounds(rows[1..], lo, hi);
      assert (|rows| as real) * lo == lo + (|rows[1..]| as real) * lo;
      assert (|rows| as real) * hi == hi + (|rows[1..]| as real) * hi;
    }
  }

  /** The average lies between the smallest and the largest amount of the window. */
  lemma AverageWithinBounds(table: seq<Row>, sender: JString, sysdate: int, lo: real, hi: real)
    requires forall r :: r in RecentRows(table, sender, sysdate) ==> lo <= r.amount <= hi
    requires AvgAmountLast5Min(table, sender, sysdate).Some?
    ensures lo <= AvgAmountLast5Min(table, sender, sysdate).value <= hi
  {
    var w := RecentRows(table, sender, sysdate);
    MeanWithinBounds(w, lo, hi);
  }

  /** The mean amount of a non-empty list of rows lies between bounds on its amounts. */
  lemma MeanWithinBounds(w: seq<Row>, lo: real, hi: real)
    requires |w| > 0
    requires forall r :: r in w ==> lo <= r.amount <= hi
    ensures lo <= SumAmounts(w) / (|w| as real) <= hi
  {
    assert forall i :: 0 <= i < |w| ==> lo <= w[i].amount <= hi by {
      forall i | 0 <= i < |w| ensures lo <= w[i].amount <= hi {
        assert w[i] in w;
      }
    }
    SumBounds(w, lo, hi);
    QuotientBounds(SumAmounts(w), |w| as real, lo, hi);
  }

  /** Dividing by a positive count preserves bounds on the mean. */
  lemma QuotientBounds(s: real, n: real, lo: real, hi: real)
    requires n > 0.0 && n * lo <= s <= n * hi
    ensures lo <= s / n <= hi
  {
    assert s / n - lo == (s - n * lo) / n;
    assert hi - s / n == (n * hi - s) / n;
  }

  /** A row is in the five-minute window exactly when it is a row of the
      table, of this sender (NULL matching nothing), stamped at most five
      minutes before the clock. */
  lemma RecentRowsExact(table: seq<Row>, sender: JString, sysdate: int, r: Row)
    ensures r in RecentRows(table, sender, sysdate)
        <==> r in table && sender.Some? && sender.value != "" && r.senderAccount == sender && r.timestampVal >= sysdate - 300
  {
    FilterMember((r: Row) => InWindow(r, sender, sysdate, VelocityWindow), table, r);
  }

  /** A row is in the ten-minute failed window exactly when it is a row of the
      table, of this sender, with status `FAILED`, stamped at most ten minutes
      before the clock. */
  lemma RecentFailedRowsExact(table: seq<Row>, sender: JString, sysdate: int, r: Row)
    ensures r in RecentFailedRows(table, sender, sysdate)
        <==> r in table && sender.Some? && sender.value != "" && r.senderAccount == sender && r.status == Some("FAILED")
             && r.timestampVal >= sysdate - 600
  {
    FilterMember((r: Row) => InWindow(r, sender, sysdate, FailedWindow) && SqlEquals(r.status, Some("FAILED")), table, r);
  }

  /** Appending one row adds one to a count exactly when the row meets that
      count's `WHERE` clause, and nothing otherwise. With the empty table
      counting zero, this fixes both counts on every table. */
  lemma {:induction false} CountAfterInsert(table: seq<Row>, row: Row, sender: JString, sysdate: int)
    ensures CountRecentTransactions(table + [row], sender, sysdate)
         == CountRecentTransactions(table, sender, sysdate)
            + (if sender.Some? && sender.value != "" && row.senderAccount == sender && row.timestampVal >= sysdate - 300 then 1 else 0)
    ensures CountRecentFailedTxns(table + [row], sender, sysdate)
         == CountRecentFailedTxns(table, sender, sysdate)
            + (if sender.Some? && sender.value != "" && row.senderAccount == sender && row.status == Some("FAILED")
                  && row.timestampVal >= sysdate - 600 then 1 else 0)
  {
    FilterAppend((r: Row) => InWindow(r, sender, sysdate, VelocityWindow), table, [row]);
    FilterAppend((r: Row) => InWindow(r, sender, sysdate, FailedWindow) && SqlEquals(r.status, Some("FAILED")), table, [row]);
  }

  /** A row stored at the clock by the sender counts in the five-minute
      window; if it failed it counts in the ten-minute one too. An empty
      sender is NULL and counts nowhere. */
  lemma StoredNowCounts(table: seq<Row>, row: Row, sender: JString, sysdate: int)
    requires row.timestampVal == sysdate && sender.Some? && row.senderAccount == sender
    ensures sender.value != "" ==>
      CountRecentTransactions(table + [row], sender, sysdate) == CountRecentTransactions(table, sender, sysdate) + 1
    ensures sender.value == "" ==>
      CountRecentTransactions(table + [row], sender, sysdate) == CountRecentTransactions(table, sender, sysdate)
    ensures sender.value != "" && row.status == Some("FAILED") ==>
      CountRecentFailedTxns(table + [row], sender, sysdate) == CountRecentFailedTxns(table, sender, sysdate) + 1
  {
    CountAfterInsert(table, row, sender, sysdate);
  }

  /** The table. Rows are only ever appended. */
  class TransactionRepository {
    var rows: seq<Row>

    constructor ()
      ensures rows == []
    {
      rows := [];
    }

    /** `insertTransaction`: appends one row stamped with the database clock. */
    method InsertTransaction(t: Transaction, sysdate: int)
      modifies this
      ensures rows == old(rows) + [ToRow(t.Data(), sysdate)]
    {
      rows := rows + [ToRow(t.Data(), sysdate)];
    }
  }
}

=== FILE: seqs.dfy ===
/** Sequence helpers shared by the server and the client models: the `filter`
    of JavaScript arrays and of SQL `WHERE` clauses, order-preserving
    subsequences, and string joining. */
module Seqs {

  /** The elements of `s` that satisfy `f`, in their original order. */
  function Filter<T>(f: T -> bool, s: seq<T>): (r: seq<T>)
    ensures |r| <= |s|
    ensures forall i :: 0 <= i < |r| ==> f(r[i])
  {
    if s == [] then [] else (if f(s[0]) then [s[0]] else []) + Filter(f, s[1..])
  }

  /** `a` can be obtained from `b` by deleting elements, keeping the order of the rest. */
  ghost predicate SubsequenceOf<T>(a: seq<T>, b: seq<T>)
    decreases |b|
  {
    if a == [] then true
    else if b == [] then false
    else (a[0] == b[0] && SubsequenceOf(a[1..], b[1..])) || SubsequenceOf(a, b[1..])
  }

  /** An element is kept exactly when it is in the input and satisfies `f`. */
  lemma {:induction false} FilterMember<T>(f: T -> bool, s: seq<T>, x: T)
    ensures x in Filter(f, s) <==> x in s && f(x)
  {
    if s != [] {
      FilterMember(f, s[1..], x);
      assert s == [s[0]] + s[1..];
    }
  }

  /** Each element is kept as many times as it occurs, when it satisfies `f`,
      and not at all otherwise. */
  lemma {:induction false} FilterMultiplicity<T>(f: T -> bool, s: seq<T>, x: T)
    ensures multiset(Filter(f, s))[x] == if f(x) then multiset(s)[x] else 0
  {
    if s != [] {
      FilterMultiplicity(f, s[1..], x);
      assert s == [s[0]] + s[1..];
    }
  }

  /** Filtering distributes over concatenation, so it keeps relative order. */
  lemma {:induction false} FilterAppend<T>(f: T -> bool, a: seq<T>, b: seq<T>)
    ensures Filter(f, a + b) == Filter(f, a) + Filter(f, b)
  {
    if a == [] {
      assert a + b == b;
    } else {
      assert (a + b)[1..] == a[1..] + b;
      FilterAppend(f, a[1..], b);
    }
  }

  /** Nothing survives a filter that nothing satisfies. */
  lemma {:induction false} FilterNone<T>(f: T -> bool, s: seq<T>)
    requires forall x :: !f(x)
    ensures Filter(f, s) == []
  {
    if s != [] {
      FilterNone(f, s[1..]);
    }
  }

  /** Every sequence is a subsequence of itself. */
  lemma {:induction false} SubsequenceOfSelf<T>(s: seq<T>)
    ensures SubsequenceOf(s, s)
  {
    if s != [] {
      SubsequenceOfSelf(s[1..]);
    }
  }

  /** The result of a filter is an order-preserving subsequence of its input. */
  lemma {:induction false} FilterIsSubsequence<T>(f: T -> bool, s: seq<T>)
    ensures SubsequenceOf(Filter(f, s), s)
  {
    if s != [] {
      FilterIsSubsequence(f, s[1..]);
      if f(s[0]) {
        var r := Filter(f, s);
        assert r[0] == s[0] && r[1..] == Filter(f, s[1..]);
      } else {
        assert Filter(f, s) == Filter(f, s[1..]);
      }
    }
  }

  /** Filtering a sequence that is strictly increasing under `key` leaves one that still is. */
  lemma {:induction false} FilterKeepsIncreasing<T>(f: T -> bool, s: seq<T>, key: T -> int)
    requires forall i, j :: 0 <= i < j < |s| ==> key(s[i]) < key(s[j])
    ensures forall i, j :: 0 <= i < j < |Filter(f, s)| ==> key(Filter(f, s)[i]) < key(Filter(f, s)[j])
  {
    if s != [] {
      var tail := Filter(f, s[1..]);
      FilterKeepsIncreasing(f, s[1..], key);
      forall x | x in tail ensures key(s[0]) < key(x) {
        FilterMember(f, s[1..], x);
      }
    }
  }

  /** `[x]` when `x` passes `f`, else nothing: one step of a filter. */
  function Keep<T>(f: T -> bool, x: T): seq<T> {
    if f(x) then [x] else []
  }

  /** Filtering a five-element list, element by element. */
  lemma FilterFive<T>(f: T -> bool, a: T, b: T, c: T, d: T, e: T)
    ensures Filter(f, [a, b, c, d, e])
         == Keep(f, a) + (Keep(f, b) + (Keep(f, c) + (Keep(f, d) + Keep(f, e))))
  {
    FilterCons(f, e, []);
    assert [e] + [] == [e];
    FilterCons(f, d, [e]);
    FilterCons(f, c, [d, e]);
    FilterCons(f, b, [c, d, e]);
    FilterCons(f, a, [b, c, d, e]);
    assert [a] + [b, c, d, e] == [a, b, c, d, e];
  }

  /** One step of `Filter`. */
  lemma FilterCons<T>(f: T -> bool, x: T, s: seq<T>)
    ensures Filter(f, [x] + s) == Keep(f, x) + Filter(f, s)
  {
    assert ([x] + s)[1..] == s;
  }

  /** Three predicates that never hold together at one element select at most
      as many elements as there are. */
  lemma {:induction false} DisjointFiltersBound<T>(f: T -> bool, g: T -> bool, h: T -> bool, s: seq<T>)
    requires forall x :: !(f(x) && g(x)) && !(f(x) && h(x)) && !(g(x) && h(x))
    ensures |Filter(f, s)| + |Filter(g, s)| + |Filter(h, s)| <= |s|
  {
    if s != [] {
      DisjointFiltersBound(f, g, h, s[1..]);
    }
  }

  /** `parts` separated by `sep`, like JavaScript's `Array.prototype.join`. */
  function Join(parts: seq<string>, sep: string): (r: string)
    ensures parts == [] ==> r == ""
    ensures |parts| == 1 ==> r == parts[0]
  {
    if parts == [] then ""
    else if |parts| == 1 then parts[0]
    else parts[0] + sep + Join(parts[1..], sep)
  }
}

=== FILE: service.dfy ===
/** The rule-based fraud checker of the server and its delegating operations. */
module Service {
  import opened Wrappers
  import opened Seqs
  import opened TransactionModel
  import opened Repository

  /** The five rules, in the order they are evaluated. */
  datatype Rule = HighAmount | SuspiciousIp | HighVelocity | AmountSpike | FailedBeforeSuccess

  const AllRules: seq<Rule> := [HighAmount, SuspiciousIp, HighVelocity, AmountSpike, FailedBeforeSuccess]

  /** Position of a rule in the evaluation order. */
  function Rank(r: Rule): int {
    match r
    case HighAmount => 0
    case SuspiciousIp => 1
    case HighVelocity => 2
    case AmountSpike => 3
    case FailedBeforeSuccess => 4
  }

  /** The alert text a rule appends. */
  function Alert(r: Rule): (text: string)
    ensures |text| > 0
  {
    match r
    case HighAmount => "High amount. "
    case SuspiciousIp => "Suspicious IP. "
    case HighVelocity => "High transaction velocity. "
    case AmountSpike => "Rapid amount spike. "
    case FailedBeforeSuccess => "Multiple failed attempts before success. "
  }

  const AmountThreshold := 50000.0
  const SuspiciousPrefix := "172."
  const VelocityLimit := 3
  const SpikeFactor := 3.0
  const FailedLimit := 2
  const NoFraudMessage := "No fraud detected"
  const NoFraudReason := "NONE"

  // ---------- String.equalsIgnoreCase ----------

  /** `Character.toUpperCase` on ASCII letters and on the two other characters
      whose upper case is an ASCII letter (long s, dotless i). */
  function UpperCase(c: char): char {
    if 'a' <= c <= 'z' then (c as int - 32) as char
    else if c == '\U{017F}' then 'S'
    else if c == '\U{0131}' then 'I'
    else c
  }

  /** `Character.toLowerCase` on ASCII letters and on the two other characters
      whose lower case is an ASCII letter (dotted capital I, Kelvin sign). */
  function LowerCase(c: char): char {
    if 'A' <= c <= 'Z' then (c as int + 32) as char
    else if c == '\U{0130}' then 'i'
    else if c == '\U{212A}' then 'k'
    else c
  }

  /** The per-character test of `String.equalsIgnoreCase`. */
  predicate SameIgnoringCase(a: char, b: char) {
    a == b || UpperCase(a) == UpperCase(b) || LowerCase(UpperCase(a)) == LowerCase(UpperCase(b))
  }

  /** `a.equalsIgnoreCase(b)`; false when `b` is null. */
  predicate EqualsIgnoreCase(a: string, b: JString)
    ensures EqualsIgnoreCase(a, b) ==> b.Some? && |b.value| == |a|
    ensures b == Some(a) ==> EqualsIgnoreCase(a, b)
  {
    b.Some? && |a| == |b.value| && forall i :: 0 <= i < |a| ==> SameIgnoringCase(a[i], b.value[i])
  }

  /** `"SUCCESS".equalsIgnoreCase(status)`. */
  predicate IsSuccess(status: JString) {
    EqualsIgnoreCase("SUCCESS", status)
  }

  // ---------- the rules ----------

  /** What the repository answers about the sender before the transaction is
      stored: the five-minute count, the five-minute average and the
      ten-minute count of failures. */
  datatype Evidence = Evidence(recentCount: nat, avgAmount: Option<real>, failedCount: nat)

  /** The three queries of `checkFraudRules`, run against `table` at `sysdate`. */
  function Gather(t: TxnData, table: seq<Row>, sysdate: int): (ev: Evidence)
    ensures ev.avgAmount.None? <==> ev.recentCount == 0
  {
    Evidence(CountRecentTransactions(table, t.senderAccount, sysdate),
             AvgAmountLast5Min(table, t.senderAccount, sysdate),
             CountRecentFailedTxns(table, t.senderAccount, sysdate))
  }

  /** Whether rule `r` fires for `t` given the repository's answers `ev`. */
  predicate Fires(r: Rule, t: TxnData, ev: Evidence) {
    match r
    case HighAmount => t.amount > AmountThreshold
    case SuspiciousIp => t.ipAddress.Some? && SuspiciousPrefix <= t.ipAddress.value
    case HighVelocity => ev.recentCount >= VelocityLimit
    case AmountSpike => ev.avgAmount.Some? && ev.avgAmount.value > 0.0 && t.amount > ev.avgAmount.value * SpikeFactor
    case FailedBeforeSuccess => IsSuccess(t.status) && ev.failedCount >= FailedLimit
  }

  /** The five conditions of `checkFraudRules`, each on the transaction and
      on the repository's answers for its sender at the clock: an amount
      above 50000, an IP address starting "172.", three or more recent rows,
      an amount above three times a positive recent average, and a status
      equal to "SUCCESS" ignoring case with two or more recent failures. */
  lemma RuleConditions(t: TxnData, table: seq<Row>, sysdate: int)
    ensures var ev := Gather(t, table, sysdate);
      && (Fires(HighAmount, t, ev) <==> t.amount > 50000.0)
      && (Fires(SuspiciousIp, t, ev) <==> t.ipAddress.Some? && "172." <= t.ipAddress.value)
      && (Fires(HighVelocity, t, ev) <==> CountRecentTransactions(table, t.senderAccount, sysdate) >= 3)
      && (Fires(AmountSpike, t, ev) <==>
            var avg := AvgAmountLast5Min(table, t.senderAccount, sysdate);
            avg.Some? && avg.value > 0.0 && t.amount > avg.value * 3.0)
      && (Fires(FailedBeforeSuccess, t, ev) <==>
            EqualsIgnoreCase("SUCCESS", t.status) && CountRecentFailedTxns(table, t.senderAccount, sysdate) >= 2)
  {
  }

  /** `Fires` for one transaction, as a predicate on rules. */
  function FiresFor(t: TxnData, ev: Evidence): Rule -> bool {
    (r: Rule) => Fires(r, t, ev)
  }

  /** The rules that fire, in evaluation order. */
  function FiredRules(t: TxnData, ev: Evidence): seq<Rule> {
    Filter(FiresFor(t, ev), AllRules)
  }

  /** The alerts of `rs`, concatenated in order. */
  function AlertText(rs: seq<Rule>): string {
    if rs == [] then "" else Alert(rs[0]) + AlertText(rs[1..])
  }

  /** The value `checkFraudRules` returns. */
  function Verdict(t: TxnData, ev: Evidence): (msg: string)
    ensures FiredRules(t, ev) == [] ==> msg == NoFraudMessage
    ensures FiredRules(t, ev) != [] ==> msg == AlertText(FiredRules(t, ev))
  {
    var fired := FiredRules(t, ev);
    if fired == [] then NoFraudMessage else AlertText(fired)
  }

  /** The transaction after `checkFraudRules`: only the flag and the reason differ. */
  function Flagged(t: TxnData, ev: Evidence): (f: TxnData)
    ensures f == t.(fraudFlag := f.fraudFlag, fraudReason := f.fraudReason)
    ensures f.fraudFlag <==> exists r :: Fires(r, t, ev)
    ensures f.fraudFlag ==> f.fraudReason == Some(Verdict(t, ev))
    ensures !f.fraudFlag ==> f.fraudReason == Some(NoFraudReason)
  {
    var fired := FiredRules(t, ev);
    FiredIff(t, ev);
    assert fired != [] ==> fired[0] in fired;
    if fired == [] then t.(fraudFlag := false, fraudReason := Some(NoFraudReason))
    else t.(fraudFlag := true, fraudReason := Some(AlertText(fired)))
  }

  // ---------- properties of the rule evaluation ----------

  /** A rule's alert is present exactly when the rule fires. */
  lemma {:induction false} FiredIff(t: TxnData, ev: Evidence)
    ensures forall r :: r in FiredRules(t, ev) <==> Fires(r, t, ev)
  {
    forall r ensures r in FiredRules(t, ev) <==> Fires(r, t, ev) {
      FilterMember(FiresFor(t, ev), AllRules, r);
      assert r in AllRules by { assert AllRules[Rank(r)] == r; }
    }
  }

  /** Alerts appear in rule order 1 to 5, each at most once. */
  lemma FiredInRuleOrder(t: TxnData, ev: Evidence)
    ensures forall i, j :: 0 <= i < j < |FiredRules(t, ev)| ==>
      Rank(FiredRules(t, ev)[i]) < Rank(FiredRules(t, ev)[j])
  {
    FilterKeepsIncreasing(FiresFor(t, ev), AllRules, Rank);
  }

  /** The alert text is empty exactly when no rule fired. */
  lemma {:induction false} AlertTextEmpty(rs: seq<Rule>)
    ensures AlertText(rs) == "" <==> rs == []
  {
    if rs != [] {
      assert |AlertText(rs)| >= |Alert(rs[0])| > 0;
    }
  }

  lemma {:induction false} AlertTextAppend(a: seq<Rule>, b: seq<Rule>)
    ensures AlertText(a + b) == AlertText(a) + AlertText(b)
  {
    if a == [] {
      assert a + b == b;
    } else {
      assert (a + b)[1..] == a[1..] + b;
      AlertTextAppend(a[1..], b);
    }
  }


  /** The alert rule `r` contributes: its text when it fires, nothing otherwise. */
  function AlertIf(fires: bool, r: Rule): (text: string)
    ensures text == AlertText(if fires then [r] else [])
  {
    assert [r][1..] == [];
    if fires then Alert(r) else ""
  }

  /** The alert text of one filter step. */
  lemma AlertTextKeep(f: Rule -> bool, r: Rule)
    ensures AlertText(Keep(f, r)) == AlertIf(f(r), r)
  {
  }

  /** The rules `f` keeps, taken one rule at a time in rule order. */
  function KeepEach(f: Rule -> bool): seq<Rule> {
    Keep(f, HighAmount) + (Keep(f, SuspiciousIp) + (Keep(f, HighVelocity)
      + (Keep(f, AmountSpike) + Keep(f, FailedBeforeSuccess))))
  }

  /** A filtered rule list, rule by rule. */
  lemma FiredRulesByRule(f: Rule -> bool)
    ensures Filter(f, AllRules) == KeepEach(f)
  {
    FilterFive(f, HighAmount, SuspiciousIp, HighVelocity, AmountSpike, FailedBeforeSuccess);
  }

  /** The alerts of rules 1 and 2, which look at the transaction only. */
  function TransactionRuleAlerts(t: TxnData, ev: Evidence): string {
    AlertIf(Fires(HighAmount, t, ev), HighAmount) + AlertIf(Fires(SuspiciousIp, t, ev), SuspiciousIp)
  }

  /** The buffer `s` after rules 3 to 5, which look at the repository's answers. */
  function WithHistoryAlerts(s: string, t: TxnData, ev: Evidence): string {
    s + AlertIf(Fires(HighVelocity, t, ev), HighVelocity) + AlertIf(Fires(AmountSpike, t, ev), AmountSpike)
      + AlertIf(Fires(FailedBeforeSuccess, t, ev), FailedBeforeSuccess)
  }

  /** The alert text of `checkFraudRules`, appended rule by rule in rule order. */
  function RuleByRuleAlerts(t: TxnData, ev: Evidence): string {
    WithHistoryAlerts(TransactionRuleAlerts(t, ev), t, ev)
  }

  lemma Reassociate(a: string, b: string, c: string, d: string, e: string)
    ensures a + (b + (c + (d + e))) == a + b + c + d + e
  {
    assert a + (b + (c + (d + e))) == a + (b + (c + d) + e);
  }

  /** Appending the alerts rule by rule gives the alert text of the fired rules. */
  lemma AlertTextByRule(t: TxnData, ev: Evidence)
    ensures AlertText(FiredRules(t, ev)) == RuleByRuleAlerts(t, ev)
  {
    var f := FiresFor(t, ev);
    var k1, k2, k3, k4, k5 := Keep(f, HighAmount), Keep(f, SuspiciousIp), Keep(f, HighVelocity),
                              Keep(f, AmountSpike), Keep(f, FailedBeforeSuccess);
    FiredRulesByRule(f);
    AlertTextAppend(k4, k5);
    AlertTextAppend(k3, k4 + k5);
    AlertTextAppend(k2, k3 + (k4 + k5));
    AlertTextAppend(k1, k2 + (k3 + (k4 + k5)));
    AlertTextKeep(f, HighAmount);
    AlertTextKeep(f, SuspiciousIp);
    AlertTextKeep(f, HighVelocity);
    AlertTextKeep(f, AmountSpike);
    AlertTextKeep(f, FailedBeforeSuccess);
    Reassociate(AlertText(k1), AlertText(k2), AlertText(k3), AlertText(k4), AlertText(k5));
  }

  /** `Verdict` and `Flagged` in terms of the accumulated alert text. */
  lemma VerdictOfAlerts(t: TxnData, ev: Evidence, alerts: string)
    requires alerts == AlertText(FiredRules(t, ev))
    ensures Verdict(t, ev) == if alerts == "" then NoFraudMessage else alerts
    ensures Flagged(t, ev) == if alerts == "" then t.(fraudFlag := false, fraudReason := Some(NoFraudReason))
                              else t.(fraudFlag := true, fraudReason := Some(alerts))
  {
    AlertTextEmpty(FiredRules(t, ev));
  }

  // ---------- decoding a fraud reason ----------

  /** The rule whose alert starts `s`, trying the rules in order. */
  function MatchAlert(s: string): (m: Option<Rule>)
    ensures m.Some? ==> Alert(m.value) <= s
  {
    if Alert(HighAmount) <= s then Some(HighAmount)
    else if Alert(SuspiciousIp) <= s then Some(SuspiciousIp)
    else if Alert(HighVelocity) <= s then Some(HighVelocity)
    else if Alert(AmountSpike) <= s then Some(AmountSpike)
    else if Alert(FailedBeforeSuccess) <= s then Some(FailedBeforeSuccess)
    else None
  }

  /** Reads a fraud reason back as the list of rules that produced it. */
  function DecodeAlerts(s: string): Option<seq<Rule>>
    decreases |s|
  {
    if s == [] then Some([])
    else match MatchAlert(s)
      case None => None
      case Some(r) =>
        match DecodeAlerts(s[|Alert(r)|..])
        case None => None
        case Some(rest) => Some([r] + rest)
  }

  /** Two different alerts differ at some position both of them have. */
  lemma AlertsDiffer(r: Rule, q: Rule)
    requires r != q
    ensures exists i :: 0 <= i < |Alert(r)| && i < |Alert(q)| && Alert(r)[i] != Alert(q)[i]
  {
    if {r, q} == {HighAmount, HighVelocity} {
      assert Alert(r)[5] != Alert(q)[5];
    } else {
      assert Alert(r)[0] != Alert(q)[0];
    }
  }

  /** No alert is a prefix of text that starts with a different alert. */
  lemma {:induction false} MatchAlertExact(r: Rule, rest: string)
    ensures MatchAlert(Alert(r) + rest) == Some(r)
  {
    var s := Alert(r) + rest;
    forall q | q != r ensures !(Alert(q) <= s) {
      AlertsDiffer(r, q);
      var i :| 0 <= i < |Alert(r)| && i < |Alert(q)| && Alert(r)[i] != Alert(q)[i];
      assert s[i] == Alert(r)[i];
    }
  }

  /** A fraud reason names exactly the rules that fired, in order. */
  lemma {:induction false} DecodeAlertText(rs: seq<Rule>)
    ensures DecodeAlerts(AlertText(rs)) == Some(rs)
  {
    if rs != [] {
      var s := AlertText(rs);
      MatchAlertExact(rs[0], AlertText(rs[1..]));
      assert s[|Alert(rs[0])|..] == AlertText(rs[1..]);
      DecodeAlertText(rs[1..]);
      assert [rs[0]] + rs[1..] == rs;
    }
  }

  /** "SUCCESS" in any letter case passes the check of rule 5; a null status does not. */
  lemma EqualsIgnoreCaseExamples()
    ensures EqualsIgnoreCase("SUCCESS", Some("success"))
    ensures EqualsIgnoreCase("SUCCESS", Some("SuCcEsS"))
    ensures !EqualsIgnoreCase("SUCCESS", Some("FAILED"))
    ensures !EqualsIgnoreCase("SUCCESS", None)
  {
    assert "SUCCESS"[0] != "FAILED"[0];
  }

  // ---------- the service ----------

  class TransactionService {
    const repository: TransactionRepository

    constructor (repository: TransactionRepository)
      ensures this.repository == repository
    {
      this.repository := repository;
    }

    /** Rules 1 and 2 of `checkFraudRules`, which look at the transaction
        only: the buffer starts empty and receives their alerts in order. */
    method TransactionAlerts(txn: Transaction) returns (alerts: string)
      ensures forall ev :: alerts == TransactionRuleAlerts(txn.Data(), ev)
    {
      alerts := "";

      // Rule 1: high amount
      if txn.amount > AmountThreshold {
        alerts := alerts + Alert(HighAmount);
      }
      ghost var upTo1 := alerts;
      assert upTo1 == AlertIf(txn.amount > AmountThreshold, HighAmount);

      // Rule 2: suspicious IP
      if txn.ipAddress.Some? && SuspiciousPrefix <= txn.ipAddress.value {
        alerts := alerts + Alert(SuspiciousIp);
      }
      assert alerts == upTo1 + AlertIf(txn.ipAddress.Some? && SuspiciousPrefix <= txn.ipAddress.value, SuspiciousIp);
    }

    /** Rules 3 to 5 of `checkFraudRules`, which query the repository about
        the sender: the buffer `alerts0` receives their alerts in order. */
    method HistoryAlerts(txn: Transaction, sysdate: int, alerts0: string) returns (alerts: string)
      ensures alerts == WithHistoryAlerts(alerts0, txn.Data(), Gather(txn.Data(), repository.rows, sysdate))
    {
      alerts := alerts0;

      // Rule 3: velocity
      var recentTxnCount := CountRecentTransactions(repository.rows, txn.senderAccount, sysdate);
      if recentTxnCount >= VelocityLimit {
        alerts := alerts + Alert(HighVelocity);
      }
      ghost var upTo3 := alerts;
      assert upTo3 == alerts0 + AlertIf(recentTxnCount >= VelocityLimit, HighVelocity);

      // Rule 4: amount spike against the five-minute average
      var avgAmount := AvgAmountLast5Min(repository.rows, txn.senderAccount, sysdate);
      if avgAmount.Some? && avgAmount.value > 0.0 && txn.amount > avgAmount.value * SpikeFactor {
        alerts := alerts + Alert(AmountSpike);
      }
      ghost var upTo4 := alerts;
      assert upTo4 == upTo3 + AlertIf(avgAmount.Some? && avgAmount.value > 0.0 && txn.amount > avgAmount.value * SpikeFactor, AmountSpike);

      // Rule 5: failed attempts before a success
      ghost var fires5 := false;
      if IsSuccess(txn.status) {
        var failedCount := CountRecentFailedTxns(repository.rows, txn.senderAccount, sysdate);
        fires5 := failedCount >= FailedLimit;
        if failedCount >= FailedLimit {
          alerts := alerts + Alert(FailedBeforeSuccess);
        }
      }
      assert alerts == upTo4 + AlertIf(fires5, FailedBeforeSuccess);
    }

    /** `checkFraudRules`: evaluates the five rules against the stored table,
        sets the flag and the reason on `txn`, and returns the alert text (or
        the no-fraud message). Nothing else of `txn` changes. */
    method CheckFraudRules(txn: Transaction, sysdate: int) returns (msg: string)
      modifies txn
      ensures txn.Data() == Flagged(old(txn.Data()), Gather(old(txn.Data()), repository.rows, sysdate))
      ensures msg == Verdict(old(txn.Data()), Gather(old(txn.Data()), repository.rows, sysdate))
    {
      ghost var t := txn.Data();
      ghost var ev := Gather(t, repository.rows, sysdate);
      var alerts := TransactionAlerts(txn);
      alerts := HistoryAlerts(txn, sysdate, alerts);
      assert alerts == RuleByRuleAlerts(t, ev);
      AlertTextByRule(t, ev);
      VerdictOfAlerts(t, ev, alerts);

      if alerts != "" {
        txn.SetFraudFlag(true);
        txn.SetFraudReason(Some(alerts));
        return alerts;
      }
      txn.SetFraudFlag(false);
      txn.SetFraudReason(Some(NoFraudReason));
      return NoFraudMessage;
    }

    /** `saveTransaction`: delegates to the repository's insert. */
    method SaveTransaction(txn: Transaction, sysdate: int)
      modifies repository
      ensures repository.rows == old(repository.rows) + [ToRow(txn.Data(), sysdate)]
    {
      repository.InsertTransaction(txn, sysdate);
    }

    /** `getAllTransactions`: the repository's whole table. */
    function GetAllTransactions(fmt: int -> string): (ts: seq<TxnData>)
      reads repository
      ensures ts == FindAll(repository.rows, fmt)
    {
      FindAll(repository.rows, fmt)
    }

    /** `getFraudTransactions`: the repository's fraud list. */
    function GetFraudTransactions(fmt: int -> string): (ts: seq<TxnData>)
      reads repository
      ensures ts == FindFraudTransactions(repository.rows, fmt)
    {
      FindFraudTransactions(repository.rows, fmt)
    }
  }
}

=== FILE: transaction.dfy ===
/** The `Transaction` entity of the server: a mutable record with one setter per
    field, and the Bean Validation constraints declared on its fields. */
module TransactionModel {
  import opened Wrappers

  /** A Java `String` reference; `None` is `null`. */
  type JString = Option<string>

  /** The value of every field of a `Transaction` object at one moment. */
  datatype TxnData = TxnData(
    transactionId: JString,
    timestamp: JString,
    currency: JString,
    amount: real,
    senderAccount: JString,
    receiverAccount: JString,
    transactionType: JString,
    channel: JString,
    status: JString,
    ipAddress: JString,
    location: JString,
    fraudFlag: bool,
    fraudReason: JString,
    mlPrediction: JString)

  /** The fields of a freshly constructed object: Java's defaults. */
  const Unset := TxnData(None, None, None, 0.0, None, None, None, None, None, None, None, false, None, None)

  /** The mutable entity. Reading a field is its getter. */
  class Transaction {
    var transactionId: JString
    var timestamp: JString
    var currency: JString
    var amount: real
    var senderAccount: JString
    var receiverAccount: JString
    var transactionType: JString
    var channel: JString
    var status: JString
    var ipAddress: JString
    var location: JString
    var fraudFlag: bool
    var fraudReason: JString
    var mlPrediction: JString

    /** All fields as one value. */
    function Data(): TxnData
      reads this
    {
      TxnData(transactionId, timestamp, currency, amount, senderAccount, receiverAccount,
              transactionType, channel, status, ipAddress, location, fraudFlag, fraudReason, mlPrediction)
    }

    constructor ()
      ensures Data() == Unset
    {
      transactionId, timestamp, currency, amount := None, None, None, 0.0;
      senderAccount, receiverAccount, transactionType, channel := None, None, None, None;
      status, ipAddress, location := None, None, None;
      fraudFlag, fraudReason, mlPrediction := false, None, None;
    }

    method SetTransactionId(v: JString)
      modifies this
      ensures Data() == old(Data()).(transactionId := v)
    {
      transactionId := v;
    }

    method SetTimestamp(v: JString)
      modifies this
      ensures Data() == old(Data()).(timestamp := v)
    {
      timestamp := v;
    }

    method SetCurrency(v: JString)
      modifies this
      ensures Data() == old(Data()).(currency := v)
    {
      currency := v;
    }

    method SetAmount(v: real)
      modifies this
      ensures Data() == old(Data()).(amount := v)
    {
      amount := v;
    }

    method SetSenderAccount(v: JString)
      modifies this
      ensures Data() == old(Data()).(senderAccount := v)
    {
      senderAccount := v;
    }

    method SetReceiverAccount(v: JString)
      modifies this
      ensures Data() == old(Data()).(receiverAccount := v)
    {
      receiverAccount := v;
    }

    method SetTransactionType(v: JString)
      modifies this
      ensures Data() == old(Data()).(transactionType := v)
    {
      transactionType := v;
    }

    method SetChannel(v: JString)
      modifies this
      ensures Data() == old(Data()).(channel := v)
    {
      channel := v;
    }

    method SetStatus(v: JString)
      modifies this
      ensures Data() == old(Data()).(status := v)
    {
      status := v;
    }

    method SetIpAddress(v: JString)
      modifies this
      ensures Data() == old(Data()).(ipAddress := v)
    {
      ipAddress := v;
    }

    method SetLocation(v: JString)
      modifies this
      ensures Data() == old(Data()).(location := v)
    {
      location := v;
    }

    method SetFraudFlag(v: bool)
      modifies this
      ensures Data() == old(Data()).(fraudFlag := v)
    {
      fraudFlag := v;
    }

    method SetFraudReason(v: JString)
      modifies this
      ensures Data() == old(Data()).(fraudReason := v)
    {
      fraudReason := v;
    }

    method SetMlPrediction(v: JString)
      modifies this
      ensures Data() == old(Data()).(mlPrediction := v)
    {
      mlPrediction := v;
    }
  }

  // ---------- Bean Validation ----------

  /** `String.trim()` removes every character up to U+0020, so a string is blank
      when it has no character above the space. */
  predicate IsBlank(s: string) {
    forall i :: 0 <= i < |s| ==> s[i] <= ' '
  }

  /** `@NotBlank`: not null and not blank. */
  predicate NotBlank(s: JString) {
    s.Some? && !IsBlank(s.value)
  }

  const Currencies: set<string> := {"INR", "USD", "EUR", "GBP"}

  /** `@Pattern(regexp = "INR|USD|EUR|GBP")`: the whole string must match one
      alternative; a null value is valid for `@Pattern`. */
  predicate CurrencyMatches(s: JString) {
    s.None? || s.value in Currencies
  }

  /** `@Positive` on a `double`. */
  predicate IsPositive(x: real) {
    x > 0.0
  }

  /** A constraint violation as Spring's `BindingResult` reports it. */
  datatype FieldError = FieldError(field: string, defaultMessage: string)

  const NotBlankMessage := "must not be blank"
  const CurrencyMessage := "Invalid currency"
  const PositiveMessage := "must be greater than 0"

  /** The six constrained fields, in declaration order. */
  const ConstrainedFields: seq<string> :=
    ["transactionId", "timestamp", "currency", "amount", "senderAccount", "receiverAccount"]

  /** All constraints hold. */
  predicate Valid(t: TxnData) {
    && NotBlank(t.transactionId)
    && NotBlank(t.timestamp)
    && CurrencyMatches(t.currency)
    && IsPositive(t.amount)
    && NotBlank(t.senderAccount)
    && NotBlank(t.receiverAccount)
  }

  function ErrorIf(failed: bool, field: string, message: string): seq<FieldError> {
    if failed then [FieldError(field, message)] else []
  }

  /** The errors `@Valid` records for the request body, one per violated
      constraint, each naming its field and carrying the constraint's message. */
  function Violations(t: TxnData): (errs: seq<FieldError>)
    ensures errs == [] <==> Valid(t)
    ensures |errs| <= |ConstrainedFields|
    ensures forall i :: 0 <= i < |errs| ==> errs[i].field in ConstrainedFields
    ensures DistinctFields(errs)
  {
    var e1 := ErrorIf(!NotBlank(t.transactionId), "transactionId", NotBlankMessage);
    var e2 := ErrorIf(!NotBlank(t.timestamp), "timestamp", NotBlankMessage);
    var e3 := ErrorIf(!CurrencyMatches(t.currency), "currency", CurrencyMessage);
    var e4 := ErrorIf(!IsPositive(t.amount), "amount", PositiveMessage);
    var e5 := ErrorIf(!NotBlank(t.senderAccount), "senderAccount", NotBlankMessage);
    var e6 := ErrorIf(!NotBlank(t.receiverAccount), "receiverAccount", NotBlankMessage);
    AppendError([], 0, e1);
    AppendError(e1, 1, e2);
    AppendError(e1 + e2, 2, e3);
    AppendError(e1 + e2 + e3, 3, e4);
    AppendError(e1 + e2 + e3 + e4, 4, e5);
    AppendError(e1 + e2 + e3 + e4 + e5, 5, e6);
    e1 + e2 + e3 + e4 + e5 + e6
  }

  /** No two errors name the same field. */
  ghost predicate DistinctFields(errs: seq<FieldError>) {
    forall i, j :: 0 <= i < j < |errs| ==> errs[i].field != errs[j].field
  }

  /** Appending at most one error for the `k`-th constrained field to errors
      for earlier fields keeps the fields distinct. */
  lemma AppendError(a: seq<FieldError>, k: nat, b: seq<FieldError>)
    requires k < |ConstrainedFields|
    requires DistinctFields(a) && forall e :: e in a ==> e.field in ConstrainedFields[..k]
    requires |b| <= 1 && forall e :: e in b ==> e.field == ConstrainedFields[k]
    ensures DistinctFields(a + b)
    ensures forall e :: e in a + b ==> e.field in ConstrainedFields[..k + 1]
  {
    assert ConstrainedFields[k] !in ConstrainedFields[..k];
    assert ConstrainedFields[..k + 1] == ConstrainedFields[..k] + [ConstrainedFields[k]];
    forall i, j | 0 <= i < j < |a + b| ensures (a + b)[i].field != (a + b)[j].field {
      if j >= |a| {
        assert (a + b)[i] in a;
        assert (a + b)[j] in b;
      }
    }
  }

  /** Each constrained field is reported, under its own name and with its
      constraint's message, exactly when that constraint fails. */
  lemma FieldErrorsExact(t: TxnData)
    ensures FieldError("transactionId", NotBlankMessage) in Violations(t) <==> !NotBlank(t.transactionId)
    ensures FieldError("timestamp", NotBlankMessage) in Violations(t) <==> !NotBlank(t.timestamp)
    ensures FieldError("currency", CurrencyMessage) in Violations(t) <==> !CurrencyMatches(t.currency)
    ensures FieldError("amount", PositiveMessage) in Violations(t) <==> !IsPositive(t.amount)
    ensures FieldError("senderAccount", NotBlankMessage) in Violations(t) <==> !NotBlank(t.senderAccount)
    ensures FieldError("receiverAccount", NotBlankMessage) in Violations(t) <==> !NotBlank(t.receiverAccount)
  {
    var e1, e2 := ErrorIf(!NotBlank(t.transactionId), "transactionId", NotBlankMessage),
                  ErrorIf(!NotBlank(t.timestamp), "timestamp", NotBlankMessage);
    var e3, e4 := ErrorIf(!CurrencyMatches(t.currency), "currency", CurrencyMessage),
                  ErrorIf(!IsPositive(t.amount), "amount", PositiveMessage);
    var e5, e6 := ErrorIf(!NotBlank(t.senderAccount), "senderAccount", NotBlankMessage),
                  ErrorIf(!NotBlank(t.receiverAccount), "receiverAccount", NotBlankMessage);
    assert Violations(t) == e1 + e2 + e3 + e4 + e5 + e6;
    assert forall x :: x in Violations(t) <==> x in e1 || x in e2 || x in e3 || x in e4 || x in e5 || x in e6;
  }

  /** Exactly the four listed currency codes satisfy the pattern. */
  lemma CurrencyPatternExact(c: string)
    ensures CurrencyMatches(Some(c)) <==> c == "INR" || c == "USD" || c == "EUR" || c == "GBP"
  {
  }

  /** A string of spaces and control characters is blank, and a string with
      one visible character is not. */
  lemma {:induction false} BlankExamples()
    ensures !NotBlank(Some(" \t\n"))
    ensures !NotBlank(Some(""))
    ensures !NotBlank(None)
    ensures NotBlank(Some("  x "))
  {
    assert "  x "[2] > ' ';
  }

  /** The fields without constraints never influence validation. */
  lemma UnconstrainedFieldsIgnored(t: TxnData, transactionType: JString, channel: JString,
                                   status: JString, ipAddress: JString, location: JString,
                                   fraudFlag: bool, fraudReason: JString, mlPrediction: JString)
    ensures Violations(t.(transactionType := transactionType, channel := channel, status := status,
                          ipAddress := ipAddress, location := location, fraudFlag := fraudFlag,
                          fraudReason := fraudReason, mlPrediction := mlPrediction))
         == Violations(t)
  {
  }
}

=== FILE: wrappers.dfy ===
/** Optional values: a Java `null` reference, a missing JSON property, an unset date bound. */
module Wrappers {

  datatype Option<+T> = None | Some(value: T)
}
